=== FILE: README.md ===
# reseer, modelled in Dafny

reseer watches a set of root directories and keeps a version number that
changes whenever a tracked file changes. The state lives in a tracker file.
Its first record is `V,<version>,reseer`. Every file under the roots then
gets one record `F,<path>,<mtime in Unix nanoseconds>`.

- At construction the Seer validates its configuration. It resets, or loads
  and compares, the tracker, then starts an inotify watcher on every directory
  under the roots.
- On each damped change it does the following, in order:
  1. Compares the tree with the tracker.
  2. Bumps the version when a tracked file changed.
  3. Rescans and saves the tracker.
  4. Reviews the watched directories.
  5. Hands the client the version text.
- A second watcher backend built on fsnotify has the same shape. It is
  modelled on its own.

## Modules

| module | models |
|---|---|
| `Wrappers` | `Option` and `Result` |
| `Decimal` | Go's 64-bit `int` and its wrap-around. `strconv.FormatInt`/`Itoa` and `strconv.ParseInt`/`Atoi` in base 10. |
| `FileTree` | The file system: a map from each path the program names to the tree found there. `filepath.Walk` is a pre-order list of visits. |
| `Scanner` | `NewDirScanner`, `scan` and `scanDir` of util.go |
| `Faults` | Every error the code returns, plus `Crash` for each place the Go runtime or the code panics |
| `Tracker` | `setVersion`, `initEntries`, `scanDirs`/`scanDir`, `compareDirs`/`compareDir`, `findDir`, `loadTracker`, and `saveTracker` over an abstract store |
| `Damper` | The one-timer event damper both backends share (`scheduleCallback`), on an integer nanosecond clock |
| `Watching` | What both backends share: the kernel's refusals and the retry budget |
| `Inotify` | `newInotify`, `start`, `add`, `stop`, `startRetry`, `review`, `scheduleCallback` |
| `Fsnotify` | `newFsnotify`, `start`, `stop`, `startRetry`, `review`, `scheduleCallback`, and the `filepath.Split` of event names |
| `Reseer` | `New`, `start`, `resetTracker`, `onChange`, `Stop`, plus a three-step session |

### Explicit inputs

These take the place of I/O and the environment:

- The file tree is a `FileSystem` value.
- The tracker file is a `Disk`. It holds what the file contains (missing, unreadable, or the decoded records) and whether it can be created.
- Native watch failures are a `Kernel`. It gives the directories the kernel refuses on each start attempt.
- Whether fsnotify can create a watcher is a boolean.
- The client callback is reduced to whether one was given, and the text it would receive.

### Behaviour worth knowing

- **Version numbers.** Any integer `Atoi` accepts is loaded as the version: zero, negative, or written with leading zeros. Its text is kept verbatim. A start without a tracker file reports version `1`.
- **Wrap-around.** The version is a Go `int`, taken as 64 bits, so incrementing it wraps from 2^63 - 1 to -2^63.
- **Root listing.** An existing root is listed for watching only when it is a directory.
- **Panics.** They are stopping faults (`Crash`), not returned errors. Each comes from one of these:
  - a root that vanished (a walk hands its callback a nil `FileInfo`)
  - a tracker record too short for the field being read
  - a call on a stopped fsnotify watcher
  - a review through a missing inotify watcher in `onChange` (`len(w.dirs)` on a nil watcher)
  - the explicit panics of `onChange`
- **Lookup by path.** `findDir` matches on the second field of every record, the version record included. A file whose path equals the version text is compared against the version record.
- **New files.** A file with no record is never a difference. Adding files does not bump the version, but the rescan that follows records them.
- **Scan errors.** `scanDirs` keeps only the error of the last root's walk.
- **fsnotify `start`.** It appends to the directory list and never resets it. A retry after a partial failure therefore lists directories twice. Its close-on-error branch cannot run.
- **fsnotify `review`.** It never updates the directory list. A directory that vanished stays listed, so as long as it stays gone, every later review finds the same change again.
- **Unchanged-set test.** Both `review`s test "same count and every new directory among the watched ones". With a duplicated directory this can miss a change.
- **fsnotify event directory.** The directory part given to the damper keeps its trailing separator.

## Model

| member | source | states |
|---|---|---|
| `Decimal.Succ64` | reseer.go:118 | Incrementing a Go int: the next integer below the maximum, the minimum at the maximum |
| `Decimal.ParseInt64` | reseer.go:306-310 | `Atoi` accepts an optional sign, then at least one digit only. A value it accepts is the value of those digits with that sign. |
| `Decimal.FormatInt` | reseer.go:204 | `Itoa` text is canonical: `-` exactly for negative numbers, then digits with no leading zero and no `-0`. That it denotes the number is `ParseFormatRoundTrip`. |
| `Decimal.ParseFormatRoundTrip` | reseer.go:228-234 | Writing any int64 in decimal and reading it back gives the same number. So the timestamp self-check in `scanDir` always passes for modification times whose nanosecond count fits in an int64. |
| `Decimal.FormatIntInjective` | reseer.go:257 | Two timestamps with equal decimal text are equal, so comparing texts compares times |
| `Decimal.FormatParseRoundTrip` | reseer.go:306-311 | Canonical text that parses is exactly the `Itoa` text of its value, so a stored version text differs from `Itoa` of its number only when it is not canonical |
| `Decimal.LeadingZerosAreNotCanonical` | reseer.go:306-311 | `"007"` parses as 7, but 7 is written `"7"`: parsing does not invert formatting |
| `FileTree.Walk` | util.go:39 | A walk visits the root first, as a directory exactly when it is one. A file root is its only visit. |
| `Scanner.ExistingRoots` | util.go:21-29 | The kept roots are exactly those given that exist |
| `Scanner.ExistingRootsIsFilter` | util.go:21-29 | Each existing root is kept as often as it was given, missing ones never, in the original order |
| `Scanner.DirsOf` | util.go:43-48 | `scanDir` appends exactly the visited directories, at most one per visit |
| `Scanner.Enumerate` | util.go:36-41 | A path is listed exactly when the walk of some kept root visits it as a directory |
| `Scanner.NewDirScanner` | util.go:18-34 | `Dirs` is the filtered roots. `AllDirs` holds exactly the directories under the roots that exist. |
| `Scanner.ExistingRootListed` | util.go:36-48 | Every existing root that is a directory is in `AllDirs` |
| `Scanner.AllDirsAppend` | util.go:36-41 | Scanning `a + b` lists `a`'s directories, then `b`'s |
| `Scanner.OverlappingRootsDuplicate` | util.go:36-41 | A root given twice has its directory listed at least twice |
| `Scanner.AllDirsEmpty` | util.go:18-48 | The scan lists nothing exactly when no existing root is a directory |
| `Tracker.SetVersion` | reseer.go:202-205 | The version text is canonical decimal, parses back to the number, and no other int64 has that text |
| `Tracker.InitEntries` | reseer.go:207-210 | The entries restart as one well-formed record: `V`, the version text, `reseer` |
| `Tracker.FileRecords` | reseer.go:235 | Every record added for a file has three fields and the `F` tag |
| `Tracker.ScanWalk` | reseer.go:221-237 | A walk only appends to the entries, keeps them well formed, and can end only with the timestamp BUG error |
| `Tracker.ScanRootsOnlyAppends` | reseer.go:213-218 | The loop over the roots only ever appends to the entries it started with |
| `Tracker.ScanDirs` | reseer.go:213-224 | The scan panics exactly when a configured root is missing |
| `Tracker.ScanRootsCrashesIffMissing` | reseer.go:213-224 | A walk error is never a panic, so the loop over at least one root panics exactly when some root is missing |
| `Tracker.ScanWalkAppendsFileRecords` | reseer.go:221-237 | Scanning one walk never fails. It appends one record per file, in walk order, and nothing for directories. |
| `Tracker.ScanDirsIsSnapshot` | reseer.go:207-218 | With every root present, the scan yields the version record followed by every file's record, without error. A missing root makes it fail. |
| `Tracker.ScanRootsMissing` | reseer.go:221-224 | A root that no longer exists makes the scan panic |
| `Tracker.ScanDirsReportsLastWalk` | reseer.go:213-218 | With every root present, the scan's error is the last root's walk error alone. In this model every such walk error is nil, because the timestamp check at reseer.go:227-234 cannot fail; the lemma records that the loop keeps only the last one. |
| `Tracker.FindDir` | reseer.go:266-273 | The result is the first record whose path field matches. No match means every record is long enough and none matches. A panic means some record lacks the field. |
| `Tracker.CompareVisit` | reseer.go:249-263 | One visit is a difference exactly when it is a file whose first matching record holds another time. It panics only when some record is too short. |
| `Tracker.CompareWalk` | reseer.go:239-263 | A walk compares unchanged exactly when every visit does; otherwise its result is that of the first visit that did not |
| `Tracker.CompareDirs` | reseer.go:239-247 | An unchanged verdict means every root exists. A panic means a root is missing or some record is too short. |
| `Tracker.CompareWalkDiffersIffStale` | reseer.go:249-263 | Against well-formed records, a walk never panics. It reports a difference exactly when some visited file's first record holds another time. |
| `Tracker.CompareDirsIsCompareWalk` | reseer.go:239-247 | Comparing root by root, stopping at the first error, is one comparison over all visits |
| `Tracker.CompareDirsDiffersIffStale` | reseer.go:239-263 | `compareDirs` gives ErrDiff exactly when a tracked file changed, and nil otherwise |
| `Tracker.CompareDirsMissingRoot` | reseer.go:239-250 | A missing root never compares as unchanged |
| `Tracker.FindDirInSnapshot` | reseer.go:266-273 | In a snapshot, looking up a path that is not the version text finds the record of that file's first visit, or nothing |
| `Tracker.SnapshotMatchesItsTree` | reseer.go:221-263 | A fresh snapshot compares as unchanged against its own tree. This needs one time per path and no path equal to the version text. |
| `Tracker.ModifiedFileDiffers` | reseer.go:249-263 | A tracked file seen with another modification time is reported as a difference |
| `Tracker.AdditionsAreNotDifferences` | reseer.go:249-255 | Untracked files and unchanged tracked files are never a difference |
| `Tracker.SaveTracker` | reseer.go:276-283 | Saving succeeds exactly when the store is writable. The store then holds the entries; on failure it is untouched. |
| `Tracker.LoadTracker` | reseer.go:286-315 | Loading fails as "empty", "no version" and "bad version" each exactly in its case. It succeeds exactly for a first record `V,<int>`, keeping all records and the version text as stored. |
| `Tracker.SaveLoadRoundTrip` | reseer.go:276-315 | A snapshot saved at version `v` loads back as the same records and version `v` with its canonical text |
| `Tracker.VersionTextKeptVerbatim` | reseer.go:306-311 | A stored version `007` loads as 7 with the text `007`, where setting 7 gives `7` |
| `Damper.Signal` | watcher_inotify.go:200-214 | The branch `scheduleCallback` takes while no callback is due: an idle timer is armed with this directory, an armed one keeps its directory with the deadline a full interval from now, and a running callback ignores the signal |
| `Damper.Tick` | watcher_inotify.go:205-207 | The callback starts exactly when an armed timer's deadline has passed, with the captured directory |
| `Damper.Notified` | watcher_inotify.go:198-215 | A signal as the program sees it: idle is armed with this directory; an armed timer whose deadline is ahead keeps its directory and moves a full interval out; one whose deadline has passed has already started the callback with the captured directory, and the signal is lost; a running callback ignores it |
| `Damper.Finish` | watcher_inotify.go:206-208 | When the callback returns the timer becomes nil; nothing else clears it |
| `Damper.Step` | watcher_inotify.go:198-215 | The callback only ever starts from an armed timer, with its captured directory, and never on a return. A return clears a running timer, and while the callback runs nothing else changes. |
| `Damper.Run` | watcher_inotify.go:198-215 | A run of events starts the callback at most once per event |
| `Damper.BurstKeepsCapturedDir` | watcher_inotify.go:211-214 | Signals on an armed timer, the first before its deadline and each less than one interval after the one before, keep its directory, fire nothing, and leave the deadline one interval after the last |
| `Damper.BurstArmsWithFirstDir` | watcher_inotify.go:198-215 | A burst on an idle timer whose signals each come less than one interval after the one before captures the first signal's directory and fires nothing |
| `Damper.QuietWindowFiresOnce` | watcher_inotify.go:198-215 | One interval of quiet after such a burst fires the callback exactly once, with the first directory |
| `Damper.LateSignalFiresPending` | watcher_inotify.go:205-214 | A signal that comes after the pending deadline finds the callback already started with the captured directory, and does not postpone it |
| `Damper.LostWhileFiring` | watcher_inotify.go:205-209 | While the callback runs, signals and ticks change and fire nothing |
| `Damper.FiresBoundedByReturns` | watcher_inotify.go:201-209 | Callbacks never overlap: starts number at most the returns plus one |
| `Damper.FiredDirsWereSignalled` | watcher_inotify.go:198-209 | Every directory the callback receives came from a signal, or was captured already |
| `Watching.FirstRefused` | watcher_inotify.go:90-97 | The index reached is the first refused directory, or the end; no earlier directory is refused |
| `Watching.StartFailsIffRefused` | watcher_inotify.go:83-99 | `start` fails exactly when one of its directories is refused |
| `Watching.RetryTally` | watcher_inotify.go:70-79 | After `n` failures the loop makes at most `3 + 1 - n` more starts on the fresh scan. It stops at the first success, or after the last retry with the last error. |
| `Watching.StartAttempts` | watcher_inotify.go:64-80 | At most four starts are made: the given directories first, fresh scans after. Every start but the last failed, the last one's error is returned, and fewer than four starts means success. |
| `Inotify.Add` | watcher_inotify.go:139-162 | A refused directory changes nothing and returns the error. Otherwise the directory gets an open watcher under the next id, which advances, and everything else is kept. |
| `Inotify.AddAll` | watcher_inotify.go:89-97 | The add loop returns the first refusal among the directories, or nil after adding all of them. The next id then advances by their count, and the timer is kept. |
| `Inotify.AfterStart` | watcher_inotify.go:83-99 | The watch a start leaves: with no refusal, every directory under its index with an open watcher and the next id equal to their count; otherwise only the directories before the first refused one, all closed, and the next id at the refused one |
| `Inotify.Start` | watcher_inotify.go:83-99 | After a reset, the directories before the first refusal are registered under ids 0, 1, … with open watchers on success or all closed on failure. The next id is their count and the error is that refusal. |
| `Inotify.AddAllFrom` | watcher_inotify.go:89-97 | The add loop, from any prefix it has added, ends at the first refusal with ids and directories matching that prefix |
| `Inotify.StopIdempotent` | watcher_inotify.go:53-61 | A second stop changes nothing and closes nothing |
| `Inotify.Stop` | watcher_inotify.go:53-61 | Every watcher with an id below the watcher count ends closed, any other keeps its state, and the ids, directories, next id and timer are kept |
| `Inotify.StopWatchers` | watcher_inotify.go:53-61 | The stop loop closes exactly the open watchers with an id below the watcher count, and every such slot ends closed |
| `Inotify.StartRetry` | watcher_inotify.go:64-80 | The number of starts and the error returned are those of `Watching.StartAttempts`. The watch is what the last attempt's start left on its directory list, whatever the watcher held before. |
| `Inotify.Retry` | watcher_inotify.go:70-79 | The starts the retry loop makes and the error it returns are those of `Watching.RetryTally`. The watch is what the last rescan's start left, or is untouched when no retry was left. |
| `Inotify.NewInotify` | watcher_inotify.go:28-46 | No watcher is built exactly when the scan finds no directory ("nothing to watch"). Otherwise the watcher and the error are those `startRetry` leaves from an empty watcher on the scan. |
| `Inotify.NewInotifyNeedsADirectory` | watcher_inotify.go:29-35 | "Nothing to watch" is reported exactly when no existing root is a directory |
| `Inotify.IsSame` | watcher_inotify.go:107-126 | The nested search loops answer yes exactly when the counts agree and every new directory is watched |
| `Inotify.Review` | watcher_inotify.go:103-136 | Review never reports an error. An unchanged watch set is kept as is. Otherwise the watch is what the last restart attempt on the fresh directory list left, the old ids and watchers being discarded. |
| `Inotify.ReviewWatchesTree` | watcher_inotify.go:103-136 | A review that finds a change and restarts successfully watches exactly the fresh scan's directories, new subdirectories included, each with an open watcher |
| `Inotify.ReviewOfStartedTreeIsNoOp` | watcher_inotify.go:28-46 | After `newInotify` succeeds the watch holds the scanned directories by index, the unchanged-set test passes on the same tree, and a review of it changes nothing |
| `Inotify.UnchangedIsSetEquality` | watcher_inotify.go:107-126 | Without duplicates in the new list, the test means equal directory sets (the converse needs distinct watched directories) |
| `Inotify.DuplicatesHideChange` | watcher_inotify.go:107-126 | With a duplicated directory the test passes though a watched directory is gone |
| `Inotify.ScheduleCallback` | watcher_inotify.go:198-215 | Only the timer changes. Idle is armed with this directory three seconds out. An armed timer whose deadline is still ahead keeps its directory and moves three seconds out. Once the deadline has passed, the callback has already started with the captured directory, and the signal is lost. A running callback ignores the signal. |
| `Fsnotify.AddEach` | watcher_fsnotify.go:92-104 | The directories before the first refusal are appended to the list and watched. The error is that refusal, and the watcher stays open. |
| `Fsnotify.Start` | watcher_fsnotify.go:87-105 | `start` appends to the existing list without resetting it. On a nil watcher any directory panics. |
| `Fsnotify.Stop` | watcher_fsnotify.go:59-65 | Stop leaves no native watcher and keeps the list and timer |
| `Fsnotify.StopIdempotent` | watcher_fsnotify.go:59-65 | A second stop changes nothing |
| `Fsnotify.StartRetry` | watcher_fsnotify.go:68-84 | With a live watcher, the starts and the error are those of `Watching.StartAttempts`. A nil watcher panics on the first attempt, unless there is nothing to add. |
| `Fsnotify.StartRetryAppends` | watcher_fsnotify.go:68-84 | The list keeps what it held, then gains what the first attempt added, then what every retry added, failed ones included |
| `Fsnotify.Retry` | watcher_fsnotify.go:74-83 | The starts and error of the retry loop are those of `Watching.RetryTally`, and the native watcher stays live |
| `Fsnotify.RetryAppends` | watcher_fsnotify.go:74-83 | Each retry appends the directories it added before its first refusal; nothing is reset between attempts |
| `Fsnotify.SecondAttemptSucceeds` | watcher_fsnotify.go:68-84 | A refused first attempt followed by a clean rescan makes exactly two starts and returns no error |
| `Fsnotify.SecondAttemptDirs` | watcher_fsnotify.go:87-105 | After a refused first attempt and a clean second one, the list holds the first attempt's additions followed by the whole rescan |
| `Fsnotify.RetryDuplicates` | watcher_fsnotify.go:68-105 | A partial first attempt followed by a successful retry lists a directory twice |
| `Fsnotify.NewFsnotify` | watcher_fsnotify.go:26-52 | "Nothing to watch" and "watcher unavailable" in that order. A watcher is built exactly when both checks pass. The watcher and the error are those `startRetry` leaves from a fresh watcher on the scan. |
| `Fsnotify.NewFsnotifyWatchesScan` | watcher_fsnotify.go:26-52 | When the first attempt is accepted in full, the new watcher lists the scanned directories in order, watches exactly them, and reports no error |
| `Fsnotify.IsSame` | watcher_fsnotify.go:115-134 | The nested loops answer yes exactly when the counts agree and every new directory is listed |
| `Fsnotify.RemoveEach` | watcher_fsnotify.go:140-142 | The remove loop unwatches exactly the listed directories |
| `Fsnotify.AddEachIgnoring` | watcher_fsnotify.go:144-146 | The add loop watches exactly the new directories the kernel accepts, ignoring errors |
| `Fsnotify.Review` | watcher_fsnotify.go:109-149 | The list never changes. On a change the listed directories are unwatched and the accepted new ones watched, and the error is nil. A nil watcher panics. |
| `Fsnotify.ReviewLeavesListStale` | watcher_fsnotify.go:109-149 | A vanished directory stops being watched but stays listed, so the next review sees the same change |
| `Fsnotify.Split` | watcher_fsnotify.go:163 | The two parts concatenate to the name. The file part has no separator, and the directory part is empty or ends in one. |
| `Fsnotify.SplitUnique` | watcher_fsnotify.go:163 | Those three properties determine the split |
| `Fsnotify.ScheduleCallback` | watcher_fsnotify.go:177-194 | The same damper on the single watcher: only the timer changes. Idle is armed, an armed timer is pushed back while its deadline is ahead, a passed deadline has already started the callback with the captured directory, and a running callback ignores the signal. |
| `Fsnotify.OnEvent` | watcher_fsnotify.go:160-166 | An event signals the damper with the name's directory part, separator included, as `Damper.Notified` does, and changes nothing else |
| `Reseer.FirstMissing` | reseer.go:50-55 | Reports the first configured root that does not exist, or none exactly when all exist |
| `Reseer.Rebuild` | reseer.go:147-155 | Rebuilding keeps the version. With every root present, the entries become the snapshot and are saved when the store is writable. A missing root fails with the store untouched. |
| `Reseer.ResetTracker` | reseer.go:141-156 | The version becomes 1 with text `1`. The snapshot at version 1 is saved, and nothing else changes. |
| `Reseer.Bumped` | reseer.go:117-118 | The version goes up by one (wrapping at the top) and goes through `setVersion`: its text is the canonical `Itoa` text of the new number, which parses back to it |
| `Reseer.StartWatching` | reseer.go:130-137 | `start` ends by building the inotify watcher. The Seer keeps exactly the watcher `newInotify` built, and the error is `newInotify`'s. |
| `Reseer.Start` | reseer.go:89-138 | Configuration is kept. A successful start keeps the watcher `newInotify` built on the roots, whose own start succeeded. |
| `Reseer.New` | reseer.go:37-70 | A missing file name, then no roots, then a missing root, each reported without touching the store. A Seer exists exactly when there is no error. It then holds the configuration and the watcher `newInotify` built on the roots. |
| `Reseer.Stop` | reseer.go:80-86 | Stop leaves no watcher for a later stop to close and keeps everything else |
| `Reseer.OnChange` | reseer.go:160-198 | A callback that completes notifies the client with the new version text. The Seer then holds the watcher as `review` left it on the roots. Every failure is a panic, and then no one is notified. |
| `Reseer.OnChangeSucceeds` | reseer.go:160-198 | With every root present, a writable store, a watcher and a comparison that does not panic, the callback completes. The version is bumped exactly on a difference, the store holds the snapshot at that version, and the watcher is the reviewed one. |
| `Reseer.OnChangeBumpsIffDiffers` | reseer.go:171-176 | The version is bumped by one exactly when a tracked file changed, and is otherwise kept with its text |
| `Reseer.OnChangePersistsSnapshot` | reseer.go:178-186 | After a completed callback the tracker file and the entries are the snapshot at the new version |
| `Reseer.OnChangeSettles` | reseer.go:160-198 | Right after a completed callback on an unchanged tree, the comparison finds no difference |
| `Reseer.NewThenQuietChangeKeepsWatch` | reseer.go:37-70 | The watcher `New` keeps holds the scanned directories by index, and a completed callback over the same tree keeps it as it was |
| `Reseer.WatchableStarts` | watcher_inotify.go:28-46 | With a directory to watch and no refusal, the watcher starts without error |
| `Reseer.StartWithoutTracker` | reseer.go:90-95 | Without a tracker file, start succeeds at version 1 and writes the snapshot |
| `Reseer.StartUnchangedKeepsVersion` | reseer.go:96-114 | With a loadable, unchanged tracker, start keeps the stored version and leaves the file alone |
| `Reseer.StartChangedBumps` | reseer.go:110-127 | With a loadable tracker and a changed file, start bumps the version and writes the new snapshot |
| `Reseer.StartCorruptResets` | reseer.go:103-109 | A tracker that fails to load is reset to version 1, and the comparison that follows finds it unchanged |
| `Reseer.StartShortRecordPanics` | reseer.go:302-306 | A first record holding only `V` makes start panic |
| `Reseer.SessionStart` | reseer.go:37-70 | A fresh start over two roots settles at version 1 |
| `Reseer.TouchDiffers` | reseer.go:249-263 | After a touched file, the comparison reports a difference |
| `Reseer.SessionTouch` | reseer.go:171-186 | After touching a file the callback settles at version 2 and reports `2` |
| `Reseer.AddIsSame` | reseer.go:249-255 | After an added file, the comparison reports none |
| `Reseer.SessionAdd` | reseer.go:178-186 | After adding a file the callback records it, keeps version 2 and reports `2` |
| `Reseer.Session` | reseer.go:160-198 | Start, touch, add: reports `1`, `2`, `2`, ending with the four expected tracker records |

## Left out

- **CSV encoding and file I/O.** The tracker store holds decoded records, so encoding then decoding is the identity. `os.Open`, `os.Create`, read and write errors are collapsed into "unreadable" and "not writable".
- **`os.Stat` errors.** Only "does not exist" is modelled.
- **Paths.** `filepath.Join` is plain concatenation with `/`. Cleaning, symbolic links and walk order are taken from the tree.
- **Goroutines, real time and logging.** Sleeps, `fmt.Println` and the watch goroutines are left out. The damper goroutine runs the callback as soon as the deadline passes, before any later signal; while it runs, the timer is in the `Firing` state.
- **Event loops.** The `watch` event loops of both backends (watcher_inotify.go:165-193, watcher_fsnotify.go:152-172) are not modelled as loops. Each event is one `ScheduleCallback`/`OnEvent` call.
- **Native watchers.** Native creation and watch failures are the `Kernel` refusal sets, so the native watcher an inotify `add` leaks on a refused `AddWatch` is not tracked. Events the kernel delivers are not modelled.
- **Client callback.** `VersionTxt` is only a field read. The callback itself is reduced to the text it would receive.
- **Fsnotify backend.** The Seer never uses it, so it is modelled on its own.
- **Test file.** reseer_test.go is not part of this model. It only builds a Seer, on two directories or on one named by a flag, checks that `New` returns no error, and then blocks. `Reseer.Session` is an example run that goes beyond it, not a restatement of it.
- `Inotify.StartRetry`: the file tree is fixed for the whole retry loop, so each retry rescans the same tree.
- `Fsnotify.StartRetry`: the file tree is fixed for the whole retry loop, so each retry rescans the same tree.
- `Reseer.Start`: the contract states only what every branch keeps and the watcher a successful start keeps. Each branch's outcome is stated by `StartWithoutTracker`, `StartUnchangedKeepsVersion`, `StartChangedBumps`, `StartCorruptResets` and `StartShortRecordPanics`.
- `Reseer.OnChange`: the contract states only the notification, the reviewed watcher and the panic discipline. The version and the tracker are stated by `OnChangeSucceeds`, `OnChangeBumpsIffDiffers`, `OnChangePersistsSnapshot` and `OnChangeSettles`.
- **Modification times.** A file's modification time is an int64 count of Unix nanoseconds. Go's `UnixNano` is undefined for times outside about the years 1678 to 2262; such files are not modelled.

=== FILE: damper.dfy ===
/**
  The event damper shared by both watcher backends (`scheduleCallback`).
  One timer serves every watched directory: a change signal arms it when
  none is armed, capturing that signal's directory, and otherwise pushes its
  deadline back to a full interval.  When the deadline passes the waiting
  goroutine runs the callback with the captured directory and only then
  clears the timer, so signals that arrive while the callback runs reset a
  timer nobody waits on any more and are lost.  Time is an integer clock in
  nanoseconds.
 */
module Damper {
  import opened Wrappers
  import opened FileTree

  const Second: int := 1_000_000_000

  /** The damper both backends configure: three seconds. */
  const Interval: int := 3 * Second

  /** `w.timer`: nil, armed with a pending callback, or with its callback running. */
  datatype Timer = Idle | Armed(dir: Path, deadline: int) | Firing(dir: Path)

  /**
    `scheduleCallback(dir)` at time `now` on a timer whose pending deadline,
    if any, has not passed yet: `Notified` ticks the clock first.
   */
  function Signal(t: Timer, dir: Path, now: int): (t': Timer)
    ensures t.Idle? ==> t' == Armed(dir, now + Interval)
    ensures t.Armed? ==> t'.Armed? && t'.dir == t.dir && t'.deadline == now + Interval
    ensures t.Firing? ==> t' == t
  {
    match t
    case Idle => Armed(dir, now + Interval)
    case Armed(d, _) => Armed(d, now + Interval)
    case Firing(_) => t
  }

  /**
    The clock reaches `now`: an armed timer whose deadline has passed starts
    its callback with the captured directory.
   */
  function Tick(t: Timer, now: int): (r: (Timer, Option<Path>))
    ensures r.1.Some? <==> t.Armed? && now >= t.deadline
    ensures r.1.Some? ==> r.0 == Firing(t.dir) && r.1.value == t.dir
    ensures r.1.None? ==> r.0 == t
  {
    match t
    case Armed(d, deadline) => if now >= deadline then (Firing(d), Some(d)) else (t, None)
    case _ => (t, None)
  }

  /**
    A change signal at time `now`, as the program sees it: the timer
    goroutine does not wait for signals, so a pending deadline that has
    already passed has started the callback first, and the signal then
    finds a running callback and is lost.  Otherwise it arms or resets.
   */
  function Notified(t: Timer, dir: Path, now: int): (r: (Timer, Option<Path>))
    ensures t.Idle? ==> r == (Armed(dir, now + Interval), None)
    ensures t.Armed? && now < t.deadline ==> r == (Armed(t.dir, now + Interval), None)
    ensures t.Armed? && now >= t.deadline ==> r == (Firing(t.dir), Some(t.dir))
    ensures t.Firing? ==> r == (t, None)
  {
    var ticked := Tick(t, now);
    (Signal(ticked.0, dir, now), ticked.1)
  }

  /** The callback returned and the goroutine sets `w.timer = nil`. */
  function Finish(t: Timer): (t': Timer)
    ensures t.Firing? ==> t' == Idle
    ensures !t.Firing? ==> t' == t
  {
    if t.Firing? then Idle else t
  }

  /** What can happen to the damper: a change signal, the clock, the callback returning. */
  datatype Event = Notify(dir: Path, at: int) | Clock(at: int) | Return

  /** One event: the callback starts only from an armed timer, with its captured directory. */
  function Step(t: Timer, e: Event): (r: (Timer, Option<Path>))
    ensures r.1.Some? ==> t.Armed? && r.1.value == t.dir && r.0 == Firing(t.dir) && !e.Return?
    ensures e.Return? ==> r == (Finish(t), None)
    ensures t.Firing? && !e.Return? ==> r == (t, None)
  {
    match e
    case Notify(d, at) => Notified(t, d, at)
    case Clock(at) => Tick(t, at)
    case Return => (Finish(t), None)
  }

  /** The timer after a run of events, and the directories the callback was started with. */
  function Run(t: Timer, evs: seq<Event>): (r: (Timer, seq<Path>))
    ensures |r.1| <= |evs|
    decreases |evs|
  {
    if |evs| == 0 then (t, [])
    else
      var first := Step(t, evs[0]);
      var rest := Run(first.0, evs[1..]);
      (rest.0, (if first.1.Some? then [first.1.value] else []) + rest.1)
  }

  predicate AllNotify(evs: seq<Event>) {
    forall i | 0 <= i < |evs| :: evs[i].Notify?
  }

  /** Each signal of a run of signals comes less than one interval after the one before. */
  predicate Timely(evs: seq<Event>)
    requires AllNotify(evs)
  {
    forall i | 0 < i < |evs| :: evs[i].at < evs[i - 1].at + Interval
  }

  function Returns(evs: seq<Event>): nat
    decreases |evs|
  {
    if |evs| == 0 then 0 else (if evs[0].Return? then 1 else 0) + Returns(evs[1..])
  }

  /**
    A burst of signals on an armed timer, the first before the pending
    deadline and each within an interval of the one before, keeps the
    captured directory and leaves the deadline a full interval after the
    last signal.
   */
  lemma {:induction false} BurstKeepsCapturedDir(d: Path, deadline: int, evs: seq<Event>)
    requires |evs| > 0 && AllNotify(evs) && Timely(evs)
    requires evs[0].at < deadline
    ensures Run(Armed(d, deadline), evs).0 == Armed(d, evs[|evs| - 1].at + Interval)
    ensures Run(Armed(d, deadline), evs).1 == []
    decreases |evs|
  {
    assert Step(Armed(d, deadline), evs[0]) == (Armed(d, evs[0].at + Interval), None);
    if |evs| > 1 {
      assert evs[1..][0] == evs[1];
      BurstKeepsCapturedDir(d, evs[0].at + Interval, evs[1..]);
    }
  }

  /**
    From an idle timer, a burst of signals each within an interval of the
    one before arms it with the first signal's directory and a deadline one
    interval after the last signal; nothing fires.
   */
  lemma BurstArmsWithFirstDir(evs: seq<Event>)
    requires |evs| > 0 && AllNotify(evs) && Timely(evs)
    ensures Run(Idle, evs).0 == Armed(evs[0].dir, evs[|evs| - 1].at + Interval)
    ensures Run(Idle, evs).1 == []
  {
    assert Step(Idle, evs[0]) == (Armed(evs[0].dir, evs[0].at + Interval), None);
    if |evs| > 1 {
      assert evs[1..][0] == evs[1];
      BurstKeepsCapturedDir(evs[0].dir, evs[0].at + Interval, evs[1..]);
    }
  }

  /**
    A signal that comes after the pending deadline does not postpone the
    callback: the callback starts with the captured directory and the
    signal itself is lost.
   */
  lemma LateSignalFiresPending(d: Path, deadline: int, dir: Path, at: int)
    requires at >= deadline
    ensures Run(Armed(d, deadline), [Notify(dir, at)]) == (Firing(d), [d])
  {
    assert Step(Armed(d, deadline), Notify(dir, at)) == (Firing(d), Some(d));
    assert [Notify(dir, at)][1..] == [];
    assert Run(Firing(d), []) == (Firing(d), []);
    assert [d] + [] == [d];
  }

  /**
    A timely burst followed by the clock passing the last signal by one
    interval fires the callback exactly once, with the first signal's
    directory.
   */
  lemma QuietWindowFiresOnce(evs: seq<Event>, now: int)
    requires |evs| > 0 && AllNotify(evs) && Timely(evs)
    requires now >= evs[|evs| - 1].at + Interval
    ensures Run(Idle, evs + [Clock(now)]).0 == Firing(evs[0].dir)
    ensures Run(Idle, evs + [Clock(now)]).1 == [evs[0].dir]
  {
    BurstArmsWithFirstDir(evs);
    RunAppend(Idle, evs, [Clock(now)]);
    var armed := Armed(evs[0].dir, evs[|evs| - 1].at + Interval);
    assert Step(armed, Clock(now)) == (Firing(evs[0].dir), Some(evs[0].dir));
    assert [Clock(now)][1..] == [];
    assert Run(armed, [Clock(now)]).1 == [evs[0].dir] + [];
  }

  /** While the callback runs, signals and clock ticks change nothing and fire nothing. */
  lemma {:induction false} LostWhileFiring(d: Path, evs: seq<Event>)
    requires forall i | 0 <= i < |evs| :: !evs[i].Return?
    ensures Run(Firing(d), evs).0 == Firing(d)
    ensures Run(Firing(d), evs).1 == []
    decreases |evs|
  {
    if |evs| > 0 {
      assert Step(Firing(d), evs[0]) == (Firing(d), None);
      LostWhileFiring(d, evs[1..]);
    }
  }

  lemma {:induction false} RunAppend(t: Timer, a: seq<Event>, b: seq<Event>)
    ensures Run(t, a + b).0 == Run(Run(t, a).0, b).0
    ensures Run(t, a + b).1 == Run(t, a).1 + Run(Run(t, a).0, b).1
    decreases |a|
  {
    if |a| == 0 {
      assert a + b == b;
    } else {
      assert (a + b)[0] == a[0];
      assert (a + b)[1..] == a[1..] + b;
      RunAppend(Step(t, a[0]).0, a[1..], b);
      var first := Step(t, a[0]);
      var head := if first.1.Some? then [first.1.value] else [];
      assert Run(t, a).1 == head + Run(first.0, a[1..]).1;
      assert Run(t, a + b).1 == head + Run(first.0, a[1..] + b).1;
    }
  }

  /**
    The callback never overlaps itself: between two starts it must have
    returned, so the starts number at most the returns plus one (none more
    while a callback is already running).
   */
  lemma {:induction false} FiresBoundedByReturns(t: Timer, evs: seq<Event>)
    ensures |Run(t, evs).1| <= Returns(evs) + (if t.Firing? then 0 else 1)
    decreases |evs|
  {
    if |evs| > 0 {
      FiresBoundedByReturns(Step(t, evs[0]).0, evs[1..]);
    }
  }

  /** Every directory the callback receives came from a signal, or was already captured. */
  lemma {:induction false} FiredDirsWereSignalled(t: Timer, evs: seq<Event>, p: Path)
    requires p in Run(t, evs).1
    ensures (t.Armed? && p == t.dir) || exists i | 0 <= i < |evs| :: evs[i].Notify? && evs[i].dir == p
    decreases |evs|
  {
    var first := Step(t, evs[0]);
    if !(first.1.Some? && first.1.value == p) {
      assert p in Run(first.0, evs[1..]).1;
      FiredDirsWereSignalled(first.0, evs[1..], p);
      if exists i | 0 <= i < |evs[1..]| :: evs[1..][i].Notify? && evs[1..][i].dir == p {
        var i :| 0 <= i < |evs[1..]| && evs[1..][i].Notify? && evs[1..][i].dir == p;
        assert evs[i + 1] == evs[1..][i];
      }
    }
  }
}

=== FILE: decimal.dfy ===
/**
  Go's 64-bit `int`/`int64` and the decimal conversions of package strconv
  that the tracker relies on: `Itoa`/`FormatInt(n, 10)` to write version
  numbers and nanosecond timestamps, `Atoi`/`ParseInt(s, 10, 64)` to read
  them back.  On a 64-bit platform `Atoi` accepts exactly what
  `ParseInt(s, 10, 64)` accepts, so both are modelled by `ParseInt64`.
 */
module Decimal {
  import opened Wrappers

  const MinInt64: int := -0x8000_0000_0000_0000
  const MaxInt64: int :=  0x7fff_ffff_ffff_ffff

  /** The values of Go's `int64` (and of `int` on 64-bit platforms). */
  type Int64 = x: int | MinInt64 <= x <= MaxInt64

  /** `x + 1` in two's-complement 64-bit arithmetic: wraps at the top. */
  function Succ64(x: Int64): (r: Int64)
    ensures x < MaxInt64 ==> r == x + 1 && r > x
    ensures x == MaxInt64 ==> r == MinInt64 && r < x
  {
    if x == MaxInt64 then MinInt64 else x + 1
  }

  predicate IsDigit(c: char) {
    '0' <= c <= '9'
  }

  predicate AllDigits(s: string) {
    forall i :: 0 <= i < |s| ==> IsDigit(s[i])
  }

  function DigitValue(c: char): (d: nat)
    requires IsDigit(c)
    ensures d < 10
  {
    (c as int) - ('0' as int)
  }

  function DigitChar(d: nat): (c: char)
    requires d < 10
    ensures IsDigit(c) && DigitValue(c) == d
  {
    (('0' as int) + d) as char
  }

  /** The shortest decimal digit string of `n` (no sign, no leading zero). */
  function Digits(n: nat): (s: string)
    ensures |s| >= 1 && AllDigits(s)
    ensures s[0] == '0' ==> n == 0
    decreases n
  {
    if n < 10 then [DigitChar(n)] else Digits(n / 10) + [DigitChar(n % 10)]
  }

  /** The number a digit string denotes, leading zeros allowed. */
  function Value(s: string): nat
    requires AllDigits(s)
    decreases |s|
  {
    if |s| == 0 then 0 else Value(s[..|s| - 1]) * 10 + DigitValue(s[|s| - 1])
  }

  /** The digits of `s` after an optional leading sign. */
  function Unsigned(s: string): string
    requires |s| >= 1
  {
    if s[0] == '-' || s[0] == '+' then s[1..] else s
  }

  /**
    The text `FormatInt` writes: an optional minus sign, then at least one
    digit, with no leading zero and no negative zero.
   */
  predicate Canonical(s: string) {
    && |s| >= 1 && s[0] != '+'
    && |Unsigned(s)| >= 1 && AllDigits(Unsigned(s))
    && (Unsigned(s)[0] == '0' ==> s == "0")
  }

  /** `strconv.FormatInt(n, 10)` and `strconv.Itoa(n)`. */
  function FormatInt(n: int): (s: string)
    ensures Canonical(s)
    ensures s[0] == '-' <==> n < 0
  {
    if n < 0 then
      assert Unsigned("-" + Digits(-n)) == Digits(-n);
      "-" + Digits(-n)
    else Digits(n)
  }

  /**
    `strconv.ParseInt(s, 10, 64)`, and `strconv.Atoi(s)` on 64-bit
    platforms: an optional sign followed by at least one decimal digit, no
    spaces or underscores, and a value inside the int64 range.  Every other
    input is a syntax or range error (`None`).
   */
  function ParseInt64(s: string): (r: Option<Int64>)
    ensures r.Some? ==> |s| >= 1 && |Unsigned(s)| >= 1 && AllDigits(Unsigned(s))
    ensures r.Some? && s[0] != '-' ==> r.value == Value(Unsigned(s))
    ensures r.Some? && s[0] == '-' ==> r.value == -(Value(Unsigned(s)) as int)
  {
    if |s| == 0 then None
    else
      var body := Unsigned(s);
      if |body| == 0 || !AllDigits(body) then None
      else
        var v := if s[0] == '-' then -(Value(body) as int) else Value(body) as int;
        if MinInt64 <= v <= MaxInt64 then Some(v) else None
  }

  lemma {:induction false} ValueOfDigits(n: nat)
    ensures Value(Digits(n)) == n
    decreases n
  {
    if n >= 10 {
      var prefix := Digits(n / 10);
      var s := prefix + [DigitChar(n % 10)];
      assert s[..|s| - 1] == prefix;
      ValueOfDigits(n / 10);
    }
  }

  /**
    Decimal encoding of an int64 followed by decoding is the identity: the
    tracker's timestamp text and version text always read back as the
    number that was written.
   */
  lemma ParseFormatRoundTrip(n: Int64)
    ensures ParseInt64(FormatInt(n)) == Some(n)
  {
    var s := FormatInt(n);
    if n < 0 {
      assert Unsigned(s) == Digits(-(n as int));
      ValueOfDigits(-(n as int));
    } else {
      assert Unsigned(s) == Digits(n);
      ValueOfDigits(n);
    }
  }

  /** Two int64 values with the same decimal text are equal. */
  lemma FormatIntInjective(a: Int64, b: Int64)
    requires FormatInt(a) == FormatInt(b)
    ensures a == b
  {
    ParseFormatRoundTrip(a);
    ParseFormatRoundTrip(b);
  }

  /** A digit string with no leading zero denotes at least 1, unless it is "0". */
  lemma {:induction false} LeadingDigitPositive(s: string)
    requires |s| >= 1 && AllDigits(s) && s[0] != '0'
    ensures Value(s) >= 1
    decreases |s|
  {
    if |s| > 1 {
      LeadingDigitPositive(s[..|s| - 1]);
    }
  }

  /** The digits of the value of a digit string without a leading zero are that string. */
  lemma {:induction false} DigitsOfValue(s: string)
    requires |s| >= 1 && AllDigits(s) && (s[0] == '0' ==> |s| == 1)
    ensures Digits(Value(s)) == s
    decreases |s|
  {
    var last := s[|s| - 1];
    if |s| == 1 {
      assert DigitChar(DigitValue(last)) == last;
      assert s == [last];
    } else {
      var init := s[..|s| - 1];
      assert init[0] == s[0];
      LeadingDigitPositive(init);
      DigitsOfValue(init);
      var n := Value(s);
      assert n / 10 == Value(init) && n % 10 == DigitValue(last);
      assert DigitChar(DigitValue(last)) == last;
      assert s == init + [last];
    }
  }

  /**
    On canonical text parsing is inverted by formatting: canonical text is
    exactly the text `FormatInt` writes for the value it denotes.
   */
  lemma FormatParseRoundTrip(s: string)
    requires Canonical(s) && ParseInt64(s).Some?
    ensures FormatInt(ParseInt64(s).value) == s
  {
    var body := Unsigned(s);
    DigitsOfValue(body);
    if s[0] == '-' {
      assert body[0] != '0';
      LeadingDigitPositive(body);
      assert s == "-" + body;
    }
  }

  /**
    Parsing is not the inverse of formatting in the other direction: text
    with leading zeros parses, but the canonical text of its value differs.
   */
  lemma LeadingZerosAreNotCanonical()
    ensures ParseInt64("007") == Some(7)
    ensures FormatInt(7) == "7"
  {
    assert Unsigned("007") == "007";
    assert "007"[..2] == "00";
    assert "00"[..1] == "0";
    assert "0"[..0] == "";
  }
}

=== FILE: faults.dfy ===
/**
  Every way an operation of the model can end badly.  Errors the Go code
  returns are listed as they are; the places where the Go runtime panics
  (a nil `os.FileInfo`, an index past the end of a record, a method call on
  a nil watcher, and the explicit `panic` calls of `onChange`) end in
  `Crash`, which stops the whole process.
 */
module Faults {
  import opened FileTree

  datatype Fault =
    | NoTrackerFile                 // "Tracking file must be provided"
    | NoDirectories                 // "One or more directories must be provided"
    | DirectoryNotFound(dir: Path)  // a configured root is missing at construction
    | TrackerUnreadable             // the tracker cannot be opened or decoded
    | TrackerEmpty                  // the tracker holds no record
    | TrackerNoVersion              // the first record does not start with "V"
    | TrackerBadVersion             // the version field is not an integer
    | TimestampBug(path: Path)      // a modification time failed its decimal round trip
    | SaveFailed                    // the tracker cannot be created for writing
    | NothingToWatch                // the scan found no directory to watch
    | WatcherUnavailable            // the notification library refused a new watcher
    | WatchRefused(dir: Path)       // a directory could not be put under watch
    | Crash(cause: Panic)

  datatype Panic =
    | NilFileInfo(path: Path)       // a walk callback was handed a missing path
    | RecordTooShort                // a tracker record lacks a field the code indexes
    | NilWatcher                    // a call through a nil watcher: stopped fsnotify, or onChange without inotify
    | ScanAborted(fault: Fault)     // onChange: rescanning failed
    | SaveAborted                   // onChange: saving the tracker failed
}

=== FILE: filetree.dfy ===
/**
  The abstract file system that stands in for `os.Stat` and
  `filepath.Walk`.  A directory tree is a `Node`; the file system maps each
  path the program names (a configured root) to the tree found there, so
  `os.Stat(p)` succeeding is `p in fs`.  A directory's children are listed
  in the order `filepath.Walk` visits them (lexical order of their names).
 */
module FileTree {
  import opened Decimal

  type Path = string

  /** A file carries only its modification time in Unix nanoseconds. */
  datatype Node = File(mtime: Int64) | Dir(children: seq<Child>)

  datatype Child = Child(name: string, node: Node)

  type FileSystem = map<Path, Node>

  /** What `filepath.Walk` hands to its callback: a path and its FileInfo. */
  datatype Visit = DirVisit(path: Path) | FileVisit(path: Path, mtime: Int64)

  /** `filepath.Join` of a directory and a child name (path cleaning left out). */
  function Join(dir: Path, name: string): Path {
    dir + "/" + name
  }

  /**
    The pre-order sequence of visits `filepath.Walk(path, fn)` makes when no
    callback returns an error: the node itself, then each child's subtree.
   */
  function Walk(path: Path, node: Node): (vs: seq<Visit>)
    ensures |vs| >= 1 && vs[0].path == path
    ensures vs[0].DirVisit? <==> node.Dir?
    ensures node.File? ==> vs == [FileVisit(path, node.mtime)]
    decreases node
  {
    match node
    case File(m) => [FileVisit(path, m)]
    case Dir(cs) => [DirVisit(path)] + WalkChildren(path, cs)
  }

  function WalkChildren(dir: Path, cs: seq<Child>): seq<Visit>
    decreases cs
  {
    if |cs| == 0 then []
    else Walk(Join(dir, cs[0].name), cs[0].node) + WalkChildren(dir, cs[1..])
  }
}

=== FILE: fsnotify.dfy ===
/**
  The fsnotify watcher backend (watcher_fsnotify.go).  One native watcher
  watches every directory; the backend also keeps the list of directories
  it added and the shared damper timer.  The native watcher is abstracted
  by the set of directories it watches; `stop` sets it to nil.
 */
module Fsnotify {
  import opened Wrappers
  import opened FileTree
  import opened Faults
  import opened Scanner
  import opened Damper
  import opened Watching

  /** The native watcher and the directories it currently watches. */
  datatype Native = Native(watched: set<Path>)

  datatype Watch = Watch(watcher: Option<Native>, dirs: seq<Path>, timer: Timer)

  /** The value `newFsnotify` builds before starting: a fresh native watcher, no directories. */
  const Fresh: Watch := Watch(Some(Native({})), [], Idle)

  /** The directories of `ds` that `start` adds before the first refusal. */
  function Prefix(ds: seq<Path>, refused: set<Path>): seq<Path> {
    ds[..FirstRefused(ds, refused)]
  }

  // ---------------------------------------------------------------------
  // start / stop
  // ---------------------------------------------------------------------

  /**
    The loop of `start` on a live native watcher: each directory is added
    to the native watcher and appended to the list; the first refusal is
    returned at once.  The close-on-error branch after the append can never
    run, because the error was checked just before, so the watcher stays open.
   */
  function AddEach(w: Watch, ds: seq<Path>, refused: set<Path>): (r: (Watch, Option<Fault>))
    requires w.watcher.Some?
    ensures r.0.dirs == w.dirs + Prefix(ds, refused)
    ensures r.0.watcher == Some(Native(w.watcher.value.watched + SeqSet(Prefix(ds, refused))))
    ensures r.0.timer == w.timer
    ensures r.1 == StartError(ds, refused)
    decreases |ds|
  {
    if |ds| == 0 || ds[0] in refused then
      assert Prefix(ds, refused) == [];
      assert SeqSet(Prefix(ds, refused)) == {};
      var native := w.watcher.value;
      assert native.watched + {} == native.watched;
      assert w.watcher == Some(Native(native.watched));
      (w, if |ds| == 0 then None else Some(WatchRefused(ds[0])))
    else
      var next := w.(watcher := Some(Native(w.watcher.value.watched + {ds[0]})), dirs := w.dirs + [ds[0]]);
      var r := AddEach(next, ds[1..], refused);
      assert Prefix(ds, refused) == [ds[0]] + Prefix(ds[1..], refused);
      assert SeqSet(Prefix(ds, refused)) == {ds[0]} + SeqSet(Prefix(ds[1..], refused));
      var watched := w.watcher.value.watched;
      assert (watched + {ds[0]}) + SeqSet(Prefix(ds[1..], refused)) == watched + SeqSet(Prefix(ds, refused));
      r
  }

  /**
    `start(dirs)`: add each directory, appending to the list the watcher
    already holds (nothing is reset).  With a nil native watcher any add
    dereferences nil.
   */
  function Start(w: Watch, ds: seq<Path>, refused: set<Path>): (r: (Watch, Option<Fault>))
    ensures r.0.watcher.Some? <==> w.watcher.Some?
    ensures w.watcher.None? ==> r.0 == w && r.1 == (if |ds| == 0 then None else Some(Crash(NilWatcher)))
    ensures w.watcher.Some? ==>
              && r.0.dirs == w.dirs + Prefix(ds, refused)
              && r.0.watcher.value.watched == w.watcher.value.watched + SeqSet(Prefix(ds, refused))
              && r.1 == StartError(ds, refused)
    ensures r.0.timer == w.timer
  {
    if w.watcher.None? then (w, if |ds| == 0 then None else Some(Crash(NilWatcher)))
    else AddEach(w, ds, refused)
  }

  /** `stop`: close the native watcher, if any, and set it to nil. */
  function Stop(w: Watch): (r: Watch)
    ensures r.watcher.None?
    ensures r.dirs == w.dirs && r.timer == w.timer
  {
    w.(watcher := None)
  }

  /** A second `stop` finds nothing to close and changes nothing. */
  lemma StopIdempotent(w: Watch)
    ensures Stop(Stop(w)) == Stop(w)
    ensures Stop(w).watcher.None?
  {
  }

  // ---------------------------------------------------------------------
  // startRetry / newFsnotify
  // ---------------------------------------------------------------------

  /** The watcher after `startRetry`, its error, and how many `start` calls were made. */
  datatype Started = Started(watch: Watch, err: Option<Fault>, attempts: nat)

  /**
    The list after the retries from attempt `lo` up to (not including)
    `hi`, starting from `acc`: each appends the directories it added
    before its first refusal.
   */
  function Appended(acc: seq<Path>, rescan: seq<Path>, kernel: Kernel, lo: nat, hi: nat): seq<Path>
    decreases hi - lo
  {
    if lo >= hi then acc else Appended(acc + Prefix(rescan, kernel(lo)), rescan, kernel, lo + 1, hi)
  }

  /**
    `startRetry(dirs, coreDirs)`: the same budget as the inotify backend,
    but every attempt appends what it added to the list the failed attempts
    left behind.  A nil native watcher panics on the first add.
   */
  function StartRetry(w: Watch, ds: seq<Path>, coreDirs: seq<Path>, fs: FileSystem, kernel: Kernel): (r: Started)
    ensures w.watcher.None? ==> r.attempts == 1 && r.err == (if |ds| == 0 then None else Some(Crash(NilWatcher)))
    ensures w.watcher.Some? ==> Tally(r.attempts, r.err) == StartAttempts(ds, coreDirs, fs, kernel)
  {
    var first := Start(w, ds, kernel(0));
    if first.1.None? || first.1.value.Crash? then Started(first.0, first.1, 1)
    else Retry(first.0, first.1, AllDirs(fs, coreDirs), kernel, 1)
  }

  /** The list `startRetry` leaves: the first attempt's additions, then every retry's. */
  lemma StartRetryAppends(w: Watch, ds: seq<Path>, coreDirs: seq<Path>, fs: FileSystem, kernel: Kernel)
    requires w.watcher.Some?
    ensures var r := StartRetry(w, ds, coreDirs, fs, kernel);
            r.watch.dirs == Appended(w.dirs + Prefix(ds, kernel(0)), AllDirs(fs, coreDirs), kernel, 1, r.attempts)
  {
    var first := Start(w, ds, kernel(0));
    if first.1.Some? && !first.1.value.Crash? {
      RetryAppends(first.0, first.1, AllDirs(fs, coreDirs), kernel, 1);
    }
  }

  /** The retry loop, after `n` failed attempts whose last error is `err`. */
  function Retry(w: Watch, err: Option<Fault>, rescan: seq<Path>, kernel: Kernel, n: nat): (r: Started)
    requires 1 <= n <= Retries + 1 && err.Some? && w.watcher.Some?
    ensures Tally(r.attempts, r.err) == RetryTally(rescan, kernel, err, n)
    ensures r.watch.watcher.Some?
    decreases Retries + 1 - n
  {
    if n == Retries + 1 then Started(w, err, n)
    else
      var r := Start(w, rescan, kernel(n));
      if r.1.None? then Started(r.0, None, n + 1)
      else Retry(r.0, r.1, rescan, kernel, n + 1)
  }

  /** Each retry appends what it added to the list, the failed ones included. */
  lemma {:induction false} RetryAppends(w: Watch, err: Option<Fault>, rescan: seq<Path>, kernel: Kernel, n: nat)
    requires 1 <= n <= Retries + 1 && err.Some? && w.watcher.Some?
    ensures var r := Retry(w, err, rescan, kernel, n);
            r.watch.dirs == Appended(w.dirs, rescan, kernel, n, r.attempts)
    decreases Retries + 1 - n
  {
    if n < Retries + 1 {
      var s := Start(w, rescan, kernel(n));
      if s.1.Some? {
        RetryAppends(s.0, s.1, rescan, kernel, n + 1);
      }
    }
  }

  /**
    Because nothing is reset between attempts, a directory added by a
    failed attempt and again by the retry that succeeds is listed twice.
   */
  lemma RetryDuplicates(w: Watch, ds: seq<Path>, coreDirs: seq<Path>, fs: FileSystem, kernel: Kernel)
    requires w.watcher.Some? && |ds| > 1
    requires ds[0] !in kernel(0) && ds[1] in kernel(0)
    requires ds[0] in AllDirs(fs, coreDirs) && StartError(AllDirs(fs, coreDirs), kernel(1)).None?
    ensures StartRetry(w, ds, coreDirs, fs, kernel).attempts == 2
    ensures StartRetry(w, ds, coreDirs, fs, kernel).err.None?
    ensures multiset(StartRetry(w, ds, coreDirs, fs, kernel).watch.dirs)[ds[0]] >= multiset(w.dirs)[ds[0]] + 2
  {
    var rescan := AllDirs(fs, coreDirs);
    SecondAttemptSucceeds(w, ds, coreDirs, fs, kernel);
    SecondAttemptDirs(w, ds, coreDirs, fs, kernel);
    assert multiset(rescan)[ds[0]] >= 1;
  }

  /** The first attempt is refused and the full rescan is not: two attempts, no error. */
  lemma SecondAttemptSucceeds(w: Watch, ds: seq<Path>, coreDirs: seq<Path>, fs: FileSystem, kernel: Kernel)
    requires w.watcher.Some? && StartError(ds, kernel(0)).Some?
    requires StartError(AllDirs(fs, coreDirs), kernel(1)).None?
    ensures StartRetry(w, ds, coreDirs, fs, kernel).attempts == 2
    ensures StartRetry(w, ds, coreDirs, fs, kernel).err.None?
  {
    var r := StartRetry(w, ds, coreDirs, fs, kernel);
    assert AttemptDirs(ds, coreDirs, fs, 1) == AllDirs(fs, coreDirs);
  }

  /** After a refused first attempt and a clean second, the list holds both attempts' additions. */
  lemma SecondAttemptDirs(w: Watch, ds: seq<Path>, coreDirs: seq<Path>, fs: FileSystem, kernel: Kernel)
    requires w.watcher.Some? && |ds| > 1
    requires ds[0] !in kernel(0) && ds[1] in kernel(0)
    requires StartError(AllDirs(fs, coreDirs), kernel(1)).None?
    ensures StartRetry(w, ds, coreDirs, fs, kernel).watch.dirs == w.dirs + [ds[0]] + AllDirs(fs, coreDirs)
  {
    var rescan := AllDirs(fs, coreDirs);
    assert FirstRefused(ds, kernel(0)) == 1;
    assert Prefix(ds, kernel(0)) == [ds[0]];
    StartFailsIffRefused(rescan, kernel(1));
    assert Prefix(rescan, kernel(1)) == rescan;
    SecondAttemptSucceeds(w, ds, coreDirs, fs, kernel);
    StartRetryAppends(w, ds, coreDirs, fs, kernel);
  }

  /** The result of `newFsnotify`: the watcher, when one was built, and the error. */
  datatype Created = Created(watch: Option<Watch>, err: Option<Fault>)

  /**
    `newFsnotify(callback, roots)`: refuse when the scan finds no directory,
    or when no native watcher can be created (`available` is false);
    otherwise start a fresh watcher with retries.
   */
  function NewFsnotify(fs: FileSystem, roots: seq<Path>, available: bool, kernel: Kernel): (r: Created)
    ensures |AllDirs(fs, roots)| == 0 ==> r == Created(None, Some(NothingToWatch))
    ensures |AllDirs(fs, roots)| > 0 && !available ==> r == Created(None, Some(WatcherUnavailable))
    ensures r.watch.Some? <==> |AllDirs(fs, roots)| > 0 && available
    ensures r.watch.Some? ==>
              var s := StartRetry(Fresh, AllDirs(fs, roots), roots, fs, kernel);
              r.watch.value.watcher.Some? && r.err == s.err && r.watch.value == s.watch
  {
    var ds := AllDirs(fs, roots);
    if |ds| == 0 then Created(None, Some(NothingToWatch))
    else if !available then Created(None, Some(WatcherUnavailable))
    else
      var s := StartRetry(Fresh, ds, roots, fs, kernel);
      Created(Some(s.watch), s.err)
  }

  /**
    When the kernel accepts every scanned directory on the first attempt,
    the new watcher lists the scan, in order, watches exactly its
    directories, and reports no error.
   */
  lemma NewFsnotifyWatchesScan(fs: FileSystem, roots: seq<Path>, kernel: Kernel)
    requires |AllDirs(fs, roots)| > 0 && StartError(AllDirs(fs, roots), kernel(0)).None?
    ensures var r := NewFsnotify(fs, roots, true, kernel);
            && r.err.None? && r.watch.Some?
            && r.watch.value.dirs == AllDirs(fs, roots)
            && r.watch.value.watcher == Some(Native(SeqSet(AllDirs(fs, roots))))
            && r.watch.value.timer == Idle
  {
    var ds := AllDirs(fs, roots);
    assert Prefix(ds, kernel(0)) == ds;
    assert {} + SeqSet(ds) == SeqSet(ds);
    assert [] + ds == ds;
  }

  // ---------------------------------------------------------------------
  // review
  // ---------------------------------------------------------------------

  /** The no-op test of `review`: equal counts, and each new directory in the list. */
  predicate SameDirs(updated: seq<Path>, current: seq<Path>) {
    |updated| == |current| && forall d | d in updated :: d in current
  }

  /** The nested search loops of `review`, over the two lists. */
  method IsSame(updated: seq<Path>, current: seq<Path>) returns (same: bool)
    ensures same <==> SameDirs(updated, current)
  {
    if |updated| != |current| {
      return false;
    }
    for i := 0 to |updated|
      invariant forall j | 0 <= j < i :: updated[j] in current
    {
      var found := false;
      for k := 0 to |current|
        invariant !found ==> forall m | 0 <= m < k :: current[m] != updated[i]
        invariant found ==> updated[i] in current
      {
        if current[k] == updated[i] {
          found := true;
          break;
        }
      }
      if !found {
        assert forall m | 0 <= m < |current| :: current[m] != updated[i];
        assert updated[i] !in current;
        return false;
      }
    }
    return true;
  }

  /** The remove loop of `review`: every listed directory is unwatched (errors ignored). */
  function RemoveEach(watched: set<Path>, ds: seq<Path>): (r: set<Path>)
    ensures r == watched - SeqSet(ds)
    decreases |ds|
  {
    if |ds| == 0 then watched
    else
      assert SeqSet(ds) == {ds[0]} + SeqSet(ds[1..]);
      RemoveEach(watched - {ds[0]}, ds[1..])
  }

  /** The add loop of `review`: every directory the native layer accepts is watched (errors ignored). */
  function AddEachIgnoring(watched: set<Path>, ds: seq<Path>, refused: set<Path>): (r: set<Path>)
    ensures r == watched + (SeqSet(ds) - refused)
    decreases |ds|
  {
    if |ds| == 0 then watched
    else
      assert SeqSet(ds) == {ds[0]} + SeqSet(ds[1..]);
      AddEachIgnoring(if ds[0] in refused then watched else watched + {ds[0]}, ds[1..], refused)
  }

  /**
    `review(roots)`: rescan; when the lists agree do nothing; otherwise
    unwatch every listed directory and watch every new one.  The list itself
    is never updated.  The error result is nil unless the native watcher is
    nil, in which case the first remove or add dereferences nil.
   */
  function Review(w: Watch, roots: seq<Path>, fs: FileSystem, refused: set<Path>): (r: (Watch, Option<Fault>))
    ensures r.0.dirs == w.dirs && r.0.timer == w.timer
    ensures SameDirs(AllDirs(fs, roots), w.dirs) ==> r == (w, None)
    ensures !SameDirs(AllDirs(fs, roots), w.dirs) && w.watcher.Some? ==>
              && r.1.None?
              && r.0.watcher == Some(Native((w.watcher.value.watched - SeqSet(w.dirs)) + (SeqSet(AllDirs(fs, roots)) - refused)))
    ensures !SameDirs(AllDirs(fs, roots), w.dirs) && w.watcher.None? ==> r.1 == Some(Crash(NilWatcher))
  {
    var updated := AllDirs(fs, roots);
    var current := w.dirs;
    if SameDirs(updated, current) then (w, None)
    else if w.watcher.None? then (w, Some(Crash(NilWatcher)))
    else
      var removed := RemoveEach(w.watcher.value.watched, current);
      (w.(watcher := Some(Native(AddEachIgnoring(removed, updated, refused)))), None)
  }

  /**
    After a review that found a change, a directory that disappeared is no
    longer watched but is still listed, and the next review against the same
    tree finds the same change again.
   */
  lemma ReviewLeavesListStale(w: Watch, roots: seq<Path>, fs: FileSystem, refused: set<Path>, gone: Path)
    requires w.watcher.Some? && !SameDirs(AllDirs(fs, roots), w.dirs)
    requires gone in w.dirs && gone !in AllDirs(fs, roots)
    ensures var r := Review(w, roots, fs, refused).0;
            && gone in r.dirs
            && gone !in r.watcher.value.watched
            && !SameDirs(AllDirs(fs, roots), r.dirs)
  {
  }

  // ---------------------------------------------------------------------
  // events
  // ---------------------------------------------------------------------

  /** The two halves of a path as `filepath.Split` returns them. */
  datatype Parts = Parts(dir: string, file: string)

  /**
    `filepath.Split`: cut just after the last separator, so that the
    directory part is empty or ends in a separator and the file part has none.
   */
  function Split(name: string): (p: Parts)
    ensures p.dir + p.file == name
    ensures '/' !in p.file
    ensures |p.dir| == 0 || p.dir[|p.dir| - 1] == '/'
    decreases |name|
  {
    if |name| == 0 then Parts("", "")
    else if name[|name| - 1] == '/' then Parts(name, "")
    else
      var init := Split(name[..|name| - 1]);
      assert name == name[..|name| - 1] + [name[|name| - 1]];
      Parts(init.dir, init.file + [name[|name| - 1]])
  }

  /** The three properties of `Split` determine the split: it is the only one. */
  lemma {:induction false} SplitUnique(name: string, q: Parts)
    requires q.dir + q.file == name
    requires '/' !in q.file
    requires |q.dir| == 0 || q.dir[|q.dir| - 1] == '/'
    ensures Split(name) == q
    decreases |name|
  {
    if |q.file| == 0 {
      assert q.dir == name;
    } else {
      var n := |name| - 1;
      var m := |q.file| - 1;
      assert name[n] == q.file[m];
      assert name[n] != '/';
      var q' := Parts(q.dir, q.file[..m]);
      assert name[..n] == q'.dir + q'.file;
      SplitUnique(name[..n], q');
      assert q.file == q'.file + [name[n]];
    }
  }

  /**
    `scheduleCallback(dir)`: a damper signal with the directory of the change,
    with the callback that had already started when the pending deadline passed first.
   */
  function ScheduleCallback(w: Watch, dir: Path, now: int): (r: (Watch, Option<Path>))
    ensures r.0.(timer := w.timer) == w
    ensures w.timer.Idle? ==> r.0.timer == Armed(dir, now + Interval) && r.1.None?
    ensures w.timer.Armed? && now < w.timer.deadline ==> r.0.timer == Armed(w.timer.dir, now + Interval) && r.1.None?
    ensures w.timer.Armed? && now >= w.timer.deadline ==> r.0.timer == Firing(w.timer.dir) && r.1 == Some(w.timer.dir)
    ensures w.timer.Firing? ==> r == (w, None)
  {
    var n := Notified(w.timer, dir, now);
    (w.(timer := n.0), n.1)
  }

  /**
    An event on `name` signals the damper with the directory part of the
    name, separator included: for a file event that is its parent directory.
   */
  function OnEvent(w: Watch, name: Path, now: int): (r: (Watch, Option<Path>))
    ensures r.0.(timer := w.timer) == w
    ensures forall d, f | d + f == name && '/' !in f && (|d| == 0 || d[|d| - 1] == '/') ::
              (r.0.timer, r.1) == Notified(w.timer, d, now)
  {
    forall d, f | d + f == name && '/' !in f && (|d| == 0 || d[|d| - 1] == '/')
      ensures Split(name).dir == d
    {
      SplitUnique(name, Parts(d, f));
    }
    ScheduleCallback(w, Split(name).dir, now)
  }
}

=== FILE: inotify.dfy ===
/**
  The inotify watcher backend (watcher_inotify.go), the one the tracker
  uses.  It holds one native watcher per directory under a small integer
  id, the directory of each id, the next free id, and the shared damper
  timer.  Native watcher creation is abstracted by the set of directories
  the kernel refuses on a given start attempt.
 */
module Inotify {
  import opened Wrappers
  import opened FileTree
  import opened Faults
  import opened Scanner
  import opened Damper
  import opened Watching

  /** A registered native watcher: still open, or closed and set to nil. */
  datatype Slot = Open | Closed

  datatype Watch = Watch(nextId: int, watchers: map<int, Slot>, dirs: map<int, Path>, timer: Timer)

  /** The value `newInotify` builds before starting: no watchers, no timer. */
  const Empty: Watch := Watch(0, map[], map[], Idle)

  /** An open or closed watcher for every registered directory id. */
  function SlotsFor(dirs: map<int, Path>, s: Slot): map<int, Slot> {
    map i | i in dirs :: s
  }

  /** Ids `0 .. |ds|-1` mapped to the directories of `ds`, in order. */
  function Indexed(ds: seq<Path>): map<int, Path> {
    map i | 0 <= i < |ds| :: ds[i]
  }

  lemma IndexedExtend(ds: seq<Path>, j: nat)
    requires j < |ds|
    ensures Indexed(ds[..j])[j := ds[j]] == Indexed(ds[..j + 1])
  {
  }

  lemma {:induction false} IndexedSize(ds: seq<Path>)
    ensures |Indexed(ds)| == |ds|
    decreases |ds|
  {
    if |ds| > 0 {
      var n := |ds| - 1;
      IndexedSize(ds[..n]);
      assert ds[..n] == ds[..n][..n];
      IndexedExtend(ds, n);
      assert ds[..n + 1] == ds;
      assert n !in Indexed(ds[..n]);
    }
  }

  lemma SlotsForSize(dirs: map<int, Path>, s: Slot)
    ensures |SlotsFor(dirs, s)| == |dirs|
  {
    assert SlotsFor(dirs, s).Keys == dirs.Keys;
  }

  /** Some element of a non-empty set of ids can be named. */
  lemma Inhabited(s: set<int>)
    ensures s == {} || exists k :: k in s
  {
    if !exists k :: k in s {
      assert s == {};
    }
  }

  // ---------------------------------------------------------------------
  // add / start / stop
  // ---------------------------------------------------------------------

  /**
    `add(dir)`: a new native watcher watching `dir` is registered, with the
    directory, under the next free id, which then advances.  A refusal
    leaves everything as it was.
   */
  function Add(w: Watch, dir: Path, refused: set<Path>): (r: (Watch, Option<Fault>))
    ensures dir in refused ==> r.0 == w && r.1 == Some(WatchRefused(dir))
    ensures dir !in refused ==>
              && r.1.None?
              && r.0.nextId == w.nextId + 1
              && r.0.watchers.Keys == w.watchers.Keys + {w.nextId}
              && r.0.dirs.Keys == w.dirs.Keys + {w.nextId}
              && r.0.watchers[w.nextId] == Open && r.0.dirs[w.nextId] == dir
              && (forall k | k in w.dirs && k != w.nextId :: r.0.dirs[k] == w.dirs[k])
              && (forall k | k in w.watchers && k != w.nextId :: r.0.watchers[k] == w.watchers[k])
              && r.0.timer == w.timer
  {
    if dir in refused then (w, Some(WatchRefused(dir)))
    else (Watch(w.nextId + 1, w.watchers[w.nextId := Open], w.dirs[w.nextId := dir], w.timer), None)
  }

  /** The loop of `start`: add the directories in order, returning at the first error. */
  function AddAll(w: Watch, ds: seq<Path>, refused: set<Path>): (r: (Watch, Option<Fault>))
    ensures r.1 == StartError(ds, refused)
    ensures r.1.None? ==> r.0.nextId == w.nextId + |ds|
    ensures r.0.timer == w.timer
    decreases |ds|
  {
    if |ds| == 0 then (w, None)
    else
      var r := Add(w, ds[0], refused);
      if r.1.Some? then r
      else
        assert FirstRefused(ds, refused) == 1 + FirstRefused(ds[1..], refused);
        AddAll(r.0, ds[1..], refused)
  }

  /**
    `stop`: close every watcher with an id below the number of watchers and
    set it to nil; ids and directories stay registered.
   */
  function Stop(w: Watch): (r: Watch)
    ensures r.nextId == w.nextId && r.dirs == w.dirs && r.timer == w.timer
    ensures r.watchers.Keys == w.watchers.Keys
    ensures forall k | k in r.watchers && 0 <= k < |w.watchers| :: r.watchers[k] == Closed
    ensures forall k | k in r.watchers && !(0 <= k < |w.watchers|) :: r.watchers[k] == w.watchers[k]
  {
    w.(watchers := map k | k in w.watchers :: if 0 <= k < |w.watchers| then Closed else w.watchers[k])
  }

  /** The ids whose native watcher `stop` closes. */
  function Closes(w: Watch): set<int> {
    set k | k in w.watchers && 0 <= k < |w.watchers| && w.watchers[k] == Open
  }

  /**
    The watch a `start` on `ds` leaves when the kernel refuses `refused`:
    with no refusal every directory is registered under its index with an
    open watcher; otherwise only the directories before the first refused
    one are registered, each with a closed watcher.
   */
  function AfterStart(ds: seq<Path>, refused: set<Path>, timer: Timer): (r: Watch)
    ensures r.timer == timer
    ensures StartError(ds, refused).None? ==>
              r.nextId == |ds| && r.dirs == Indexed(ds) && r.watchers == SlotsFor(Indexed(ds), Open)
    ensures StartError(ds, refused).Some? ==>
              && 0 <= r.nextId < |ds| && ds[r.nextId] in refused
              && r.dirs == Indexed(ds[..r.nextId]) && r.watchers == SlotsFor(r.dirs, Closed)
  {
    var k := FirstRefused(ds, refused);
    assert k == |ds| ==> ds[..k] == ds;
    Watch(k, SlotsFor(Indexed(ds[..k]), if k < |ds| then Closed else Open), Indexed(ds[..k]), timer)
  }

  /** The directories a successful start registered are exactly those of `ds`. */
  lemma IndexedValues(ds: seq<Path>)
    ensures Indexed(ds).Values == SeqSet(ds)
  {
    forall d | d in SeqSet(ds) ensures d in Indexed(ds).Values {
      var i :| 0 <= i < |ds| && ds[i] == d;
      assert Indexed(ds)[i] == d;
    }
  }

  /**
    `start(dirs)`: reset the id counter and both maps, then add each
    directory.  On success every directory is registered under its index
    with an open watcher; on the first refusal the directories before it
    stay registered, all their watchers are closed, and that error is
    returned.
   */
  function Start(w: Watch, ds: seq<Path>, refused: set<Path>): (r: (Watch, Option<Fault>))
    ensures var k := FirstRefused(ds, refused);
            && r.0.nextId == k
            && r.0.dirs == Indexed(ds[..k])
            && r.0.watchers == SlotsFor(r.0.dirs, if k < |ds| then Closed else Open)
            && r.0.timer == w.timer
            && r.1 == StartError(ds, refused)
    ensures r.0 == AfterStart(ds, refused, w.timer)
  {
    var r := AddAll(Watch(0, map[], map[], w.timer), ds, refused);
    AddAllFrom(ds, 0, refused, w.timer);
    if r.1.Some? then
      var k := FirstRefused(ds, refused);
      IndexedSize(ds[..k]);
      SlotsForSize(Indexed(ds[..k]), Open);
      assert Stop(r.0).watchers == SlotsFor(Indexed(ds[..k]), Closed);
      (Stop(r.0), r.1)
    else r
  }

  /** From the state after the first `j` directories were added, the loop ends at the first refusal. */
  lemma {:induction false} AddAllFrom(ds: seq<Path>, j: nat, refused: set<Path>, timer: Timer)
    requires j <= |ds| && forall i | 0 <= i < j :: ds[i] !in refused
    ensures var k := FirstRefused(ds, refused);
            var r := AddAll(Watch(j, SlotsFor(Indexed(ds[..j]), Open), Indexed(ds[..j]), timer), ds[j..], refused);
            && r.0 == Watch(k, SlotsFor(Indexed(ds[..k]), Open), Indexed(ds[..k]), timer)
            && r.1 == StartError(ds, refused)
    decreases |ds| - j
  {
    var k := FirstRefused(ds, refused);
    var w := Watch(j, SlotsFor(Indexed(ds[..j]), Open), Indexed(ds[..j]), timer);
    if j == |ds| {
      assert ds[j..] == [];
      assert k == j;
    } else {
      var tail := ds[j..];
      assert tail[0] == ds[j];
      assert tail[1..] == ds[j + 1..];
      if ds[j] in refused {
        assert k == j;
        assert AddAll(w, tail, refused) == (w, Some(WatchRefused(ds[j])));
      } else {
        IndexedExtend(ds, j);
        assert SlotsFor(Indexed(ds[..j]), Open)[j := Open] == SlotsFor(Indexed(ds[..j + 1]), Open);
        var next := Watch(j + 1, SlotsFor(Indexed(ds[..j + 1]), Open), Indexed(ds[..j + 1]), timer);
        assert Add(w, ds[j], refused) == (next, None);
        assert AddAll(w, tail, refused) == AddAll(next, ds[j + 1..], refused);
        AddAllFrom(ds, j + 1, refused, timer);
      }
    }
  }

  /** A second `stop` closes nothing and changes nothing. */
  lemma StopIdempotent(w: Watch)
    ensures Stop(Stop(w)) == Stop(w)
    ensures Closes(Stop(w)) == {}
  {
    assert |Stop(w).watchers| == |w.watchers| by {
      assert Stop(w).watchers.Keys == w.watchers.Keys;
    }
  }

  /**
    The loop of `stop`, id by id: it closes exactly the open watchers with
    an id below the number of watchers, and ends where `Stop` does.
   */
  method StopWatchers(w: Watch) returns (r: Watch, closed: set<int>)
    ensures r == Stop(w)
    ensures closed == Closes(w)
    ensures forall k | k in r.watchers && 0 <= k < |w.watchers| :: r.watchers[k] == Closed
  {
    var n := |w.watchers|;
    var watchers := w.watchers;
    closed := {};
    var i := 0;
    while i < n
      invariant 0 <= i <= n
      invariant watchers.Keys == w.watchers.Keys
      invariant forall k | k in watchers :: watchers[k] == if 0 <= k < i then Closed else w.watchers[k]
      invariant closed == set k | k in w.watchers && 0 <= k < i && w.watchers[k] == Open
    {
      if i in watchers && watchers[i] == Open {
        closed := closed + {i};
        watchers := watchers[i := Closed];
      }
      i := i + 1;
    }
    r := w.(watchers := watchers);
  }

  // ---------------------------------------------------------------------
  // startRetry / newInotify
  // ---------------------------------------------------------------------

  /** The watcher after `startRetry`, its error, and how many `start` calls were made. */
  datatype Started = Started(watch: Watch, err: Option<Fault>, attempts: nat)

  /**
    `startRetry(dirs, coreDirs)`: start on `dirs`; after a failure, start up
    to three more times on the directories of a fresh scan of `coreDirs`,
    stopping at the first success.  Every attempt but the last failed, and
    the result is the last attempt's error; fewer than four attempts means
    success.
   */
  function StartRetry(w: Watch, ds: seq<Path>, coreDirs: seq<Path>, fs: FileSystem, kernel: Kernel): (r: Started)
    ensures Tally(r.attempts, r.err) == StartAttempts(ds, coreDirs, fs, kernel)
    ensures r.watch == AfterStart(AttemptDirs(ds, coreDirs, fs, r.attempts - 1), kernel(r.attempts - 1), w.timer)
  {
    var first := Start(w, ds, kernel(0));
    if first.1.None? then Started(first.0, None, 1)
    else Retry(first.0, first.1, AllDirs(fs, coreDirs), kernel, 1)
  }

  /**
    The retry loop, after `n` failed attempts whose last error is `err`;
    `rescan` is the directory list of a fresh scan of the core roots, which
    is the same on every retry since the tree does not change in between.
   */
  function Retry(w: Watch, err: Option<Fault>, rescan: seq<Path>, kernel: Kernel, n: nat): (r: Started)
    requires 1 <= n <= Retries + 1 && err.Some?
    ensures Tally(r.attempts, r.err) == RetryTally(rescan, kernel, err, n)
    ensures r.attempts == n ==> r.watch == w
    ensures r.attempts > n ==> r.watch == AfterStart(rescan, kernel(r.attempts - 1), w.timer)
    decreases Retries + 1 - n
  {
    if n == Retries + 1 then Started(w, err, n)
    else
      var r := Start(w, rescan, kernel(n));
      if r.1.None? then Started(r.0, None, n + 1)
      else Retry(r.0, r.1, rescan, kernel, n + 1)
  }

  /** The result of `newInotify`: the watcher, when one was built, and the error. */
  datatype Created = Created(watch: Option<Watch>, err: Option<Fault>)

  /**
    `newInotify(callback, roots)`: refuse when the scan finds no directory;
    otherwise build the watcher and return it with the result of `startRetry`.
   */
  function NewInotify(fs: FileSystem, roots: seq<Path>, kernel: Kernel): (r: Created)
    ensures |AllDirs(fs, roots)| == 0 <==> r.watch.None?
    ensures r.watch.None? ==> r.err == Some(NothingToWatch)
    ensures r.watch.Some? ==>
              var s := StartRetry(Empty, AllDirs(fs, roots), roots, fs, kernel);
              r.err == s.err && r.watch.value == s.watch
  {
    var ds := AllDirs(fs, roots);
    if |ds| == 0 then Created(None, Some(NothingToWatch))
    else
      var s := StartRetry(Empty, ds, roots, fs, kernel);
      Created(Some(s.watch), s.err)
  }

  /** `newInotify` reports nothing to watch exactly when no root is an existing directory. */
  lemma NewInotifyNeedsADirectory(fs: FileSystem, roots: seq<Path>, kernel: Kernel)
    ensures NewInotify(fs, roots, kernel).err == Some(NothingToWatch) <==>
              forall r | r in roots && r in fs :: fs[r].File?
  {
    AllDirsEmpty(fs, roots);
  }

  // ---------------------------------------------------------------------
  // review
  // ---------------------------------------------------------------------

  /**
    The test `review` uses to leave the watchers alone: as many directories
    as watched ids, and each of them among the watched directories.
   */
  predicate Unchanged(ds: seq<Path>, watched: map<int, Path>) {
    |ds| == |watched| && forall d | d in ds :: d in watched.Values
  }

  /**
    The nested search loops of `review`: the count comparison, then for each
    new directory a search of the watched ones, returning at the first miss.
   */
  method IsSame(ds: seq<Path>, watched: map<int, Path>) returns (same: bool)
    ensures same <==> Unchanged(ds, watched)
  {
    if |ds| != |watched| {
      return false;
    }
    var i := 0;
    while i < |ds|
      invariant 0 <= i <= |ds|
      invariant forall j | 0 <= j < i :: ds[j] in watched.Values
    {
      var found := false;
      var rest := watched.Values;
      while rest != {}
        invariant rest <= watched.Values
        invariant !found && ds[i] !in watched.Values - rest
        decreases rest
      {
        var c :| c in rest;
        if c == ds[i] {
          found := true;
          break;
        }
        rest := rest - {c};
      }
      if !found {
        return false;
      }
      i := i + 1;
    }
    return true;
  }

  /**
    `review(roots)`: rescan; when the watch set is unchanged do nothing,
    otherwise stop every watcher and start again with retries, whatever
    that start returns.  The error result is always nil.
   */
  function Review(w: Watch, roots: seq<Path>, fs: FileSystem, kernel: Kernel): (r: (Watch, Option<Fault>))
    ensures r.1.None?
    ensures Unchanged(AllDirs(fs, roots), w.dirs) ==> r.0 == w
    ensures !Unchanged(AllDirs(fs, roots), w.dirs) ==>
              var t := StartAttempts(AllDirs(fs, roots), roots, fs, kernel);
              r.0 == AfterStart(AllDirs(fs, roots), kernel(t.attempts - 1), w.timer)
  {
    var ds := AllDirs(fs, roots);
    if Unchanged(ds, w.dirs) then (w, None)
    else (StartRetry(Stop(w), ds, roots, fs, kernel).watch, None)
  }

  /**
    A review that finds a change and whose restart succeeds leaves exactly
    the directories of the fresh scan watched, each under its index with an
    open watcher, newly created subdirectories included.
   */
  lemma ReviewWatchesTree(w: Watch, roots: seq<Path>, fs: FileSystem, kernel: Kernel)
    requires !Unchanged(AllDirs(fs, roots), w.dirs)
    requires StartAttempts(AllDirs(fs, roots), roots, fs, kernel).err.None?
    ensures var r := Review(w, roots, fs, kernel).0;
            && r.dirs == Indexed(AllDirs(fs, roots))
            && r.dirs.Values == SeqSet(AllDirs(fs, roots))
            && r.watchers == SlotsFor(r.dirs, Open)
            && r.nextId == |AllDirs(fs, roots)|
  {
    IndexedValues(AllDirs(fs, roots));
  }

  /**
    Right after `newInotify` succeeds the watch holds the scanned
    directories under their indexes, so a review of the same tree finds
    nothing changed and leaves the watch as it is.
   */
  lemma ReviewOfStartedTreeIsNoOp(fs: FileSystem, roots: seq<Path>, kernel: Kernel)
    requires NewInotify(fs, roots, kernel).err.None?
    ensures NewInotify(fs, roots, kernel).watch.Some?
    ensures var w := NewInotify(fs, roots, kernel).watch.value;
            && w.dirs == Indexed(AllDirs(fs, roots))
            && Unchanged(AllDirs(fs, roots), w.dirs)
            && Review(w, roots, fs, kernel).0 == w
  {
    var ds := AllDirs(fs, roots);
    var w := NewInotify(fs, roots, kernel).watch.value;
    var r := StartRetry(Empty, ds, roots, fs, kernel);
    assert AttemptDirs(ds, roots, fs, r.attempts - 1) == ds;
    IndexedSize(ds);
    IndexedValues(ds);
    assert Unchanged(ds, w.dirs);
  }

  predicate Injective(m: map<int, Path>) {
    forall a, b | a in m && b in m && a != b :: m[a] != m[b]
  }

  lemma {:induction false} ValuesSmaller(m: map<int, Path>)
    ensures |m.Values| <= |m|
    ensures Injective(m) ==> |m.Values| == |m|
    decreases |m|
  {
    Inhabited(m.Keys);
    if m.Keys == {} {
      assert m == map[];
    } else {
      var k :| k in m.Keys;
      var m' := m - {k};
      assert m.Keys == m'.Keys + {k};
      ValuesSmaller(m');
      assert m.Values <= m'.Values + {m[k]};
      if Injective(m) {
        assert m.Values == m'.Values + {m[k]};
        assert forall j | j in m' :: m'[j] != m[k];
        assert m[k] !in m'.Values;
      }
    }
  }

  /**
    The count-and-membership test is set equality when the new list has no
    duplicates (and, for the converse, the watched directories are distinct).
   */
  lemma UnchangedIsSetEquality(ds: seq<Path>, watched: map<int, Path>)
    requires NoDuplicates(ds)
    ensures Unchanged(ds, watched) ==> SeqSet(ds) == watched.Values
    ensures Injective(watched) && SeqSet(ds) == watched.Values ==> Unchanged(ds, watched)
  {
    DistinctCardinality(ds);
    ValuesSmaller(watched);
    if Unchanged(ds, watched) {
      var missing := watched.Values - SeqSet(ds);
      assert SeqSet(ds) <= watched.Values;
      assert watched.Values == SeqSet(ds) + missing;
      assert |missing| == 0;
    }
  }

  /**
    With a duplicated directory the test can miss a change: two listings of
    `a` against watched `a` and `b` pass for unchanged although `b` is gone.
   */
  lemma DuplicatesHideChange()
    ensures Unchanged(["a", "a"], map[0 := "a", 1 := "b"])
    ensures SeqSet(["a", "a"]) != map[0 := "a", 1 := "b"].Values
  {
    var m := map[0 := "a", 1 := "b"];
    assert m.Keys == {0, 1};
    assert m[0] in m.Values;
    assert m[1] in m.Values && "b" !in SeqSet(["a", "a"]);
  }

  /**
    A damper signal from the watcher of directory `dir` (`scheduleCallback(id, dir)`),
    with the callback that had already started when the pending deadline passed first.
   */
  function ScheduleCallback(w: Watch, dir: Path, now: int): (r: (Watch, Option<Path>))
    ensures r.0.(timer := w.timer) == w
    ensures w.timer.Idle? ==> r.0.timer == Armed(dir, now + Interval) && r.1.None?
    ensures w.timer.Armed? && now < w.timer.deadline ==> r.0.timer == Armed(w.timer.dir, now + Interval) && r.1.None?
    ensures w.timer.Armed? && now >= w.timer.deadline ==> r.0.timer == Firing(w.timer.dir) && r.1 == Some(w.timer.dir)
    ensures w.timer.Firing? ==> r == (w, None)
  {
    var n := Notified(w.timer, dir, now);
    (w.(timer := n.0), n.1)
  }
}

=== FILE: reseer.dfy ===
/**
  The Seer of reseer.go: validate the configuration, bring the tracker file
  up to date with the watched trees (bumping the version when a tracked
  file changed), watch the directories with the inotify backend, and on
  every damped change recompare, bump, rescan, persist, review the
  watchers and notify the client with the version text.

  The file tree, the tracker file and the kernel's refusals are explicit
  inputs.  An error whose fault is a `Crash` stands for a Go panic: it ends
  the operation (and, inside the change callback, the process).
 */
module Reseer {
  import opened Wrappers
  import opened Decimal
  import opened FileTree
  import opened Faults
  import opened Scanner
  import opened Tracker
  import opened Watching
  import Inotify

  /**
    The Seer's fields: the tracker file name, the configured roots, the
    version and its text, the in-memory entries, the inotify backend once
    built, and whether a client callback was given.
   */
  datatype Seer = Seer(filename: string, dirs: seq<Path>, version: Version, entries: seq<Record>,
                       watch: Option<Inotify.Watch>, notify: bool)

  /** A Seer operation's outcome: the new state, the tracker store, and the error. */
  datatype Outcome = Outcome(seer: Seer, disk: Disk, err: Option<Fault>)

  /** The Seer `New` allocates: zero version, no entries, no watcher yet. */
  function Fresh(filename: string, dirs: seq<Path>, notify: bool): Seer {
    Seer(filename, dirs, Version(0, ""), [], None, notify)
  }

  /** The first configured root that does not exist, if any. */
  function FirstMissing(fs: FileSystem, dirs: seq<Path>): (m: Option<Path>)
    ensures m.None? <==> AllExist(fs, dirs)
    ensures m.Some? ==> m.value in dirs && m.value !in fs
    ensures m.Some? ==> exists i | 0 <= i < |dirs| :: dirs[i] == m.value && forall j | 0 <= j < i :: dirs[j] in fs
    decreases |dirs|
  {
    if |dirs| == 0 then None
    else if dirs[0] !in fs then Some(dirs[0])
    else
      var m := FirstMissing(fs, dirs[1..]);
      assert forall j | 0 <= j < |dirs| - 1 :: dirs[1..][j] == dirs[j + 1];
      if m.Some? then
        var i :| 0 <= i < |dirs[1..]| && dirs[1..][i] == m.value && forall j | 0 <= j < i :: dirs[1..][j] in fs;
        assert dirs[i + 1] == m.value;
        m
      else m
  }

  // ---------------------------------------------------------------------
  // Rebuilding the tracker
  // ---------------------------------------------------------------------

  /**
    `initEntries`, `scanDirs` and `saveTracker` at the Seer's current
    version: the entries restart from the version record, gain the scanned
    file records, and are written out unless the scan failed.
   */
  function Rebuild(s: Seer, fs: FileSystem, disk: Disk): (r: Outcome)
    ensures r.seer.version == s.version
    ensures AllExist(fs, s.dirs) ==>
              && r.seer.entries == Snapshot(s.version.text, fs, s.dirs)
              && r.err == (if disk.writable then None else Some(SaveFailed))
              && (disk.writable ==> r.disk == Disk(Records(r.seer.entries), true))
    ensures !AllExist(fs, s.dirs) ==> r.err.Some? && r.disk == disk
    ensures r.seer.(entries := s.entries) == s
  {
    var scan := ScanDirs(fs, s.dirs, InitEntries(s.version.text));
    ScanDirsIsSnapshot(fs, s.dirs, s.version.text);
    var s' := s.(entries := scan.entries);
    if scan.err.Some? then Outcome(s', disk, scan.err)
    else
      var saved := SaveTracker(disk, s'.entries);
      Outcome(s', saved.0, saved.1)
  }

  /** `resetTracker`: version 1, then a rebuilt and saved tracker. */
  function ResetTracker(s: Seer, fs: FileSystem, disk: Disk): (r: Outcome)
    ensures r.seer.version == SetVersion(1) && r.seer.version.text == "1"
    ensures r.seer.(version := s.version, entries := s.entries) == s
    ensures AllExist(fs, s.dirs) && disk.writable ==>
              && r.err.None?
              && r.disk == Disk(Records(Snapshot("1", fs, s.dirs)), true)
              && r.seer.entries == Snapshot("1", fs, s.dirs)
  {
    assert FormatInt(1) == "1" by { assert Digits(1) == [DigitChar(1)]; }
    Rebuild(s.(version := SetVersion(1)), fs, disk)
  }

  /** The version after one more change: `version + 1`, wrapping like Go's int. */
  function Bumped(v: Version): (r: Version)
    ensures v.number < MaxInt64 ==> r.number == v.number + 1
    ensures v.number == MaxInt64 ==> r.number == MinInt64
    ensures ParseInt64(r.text) == Some(r.number) && Canonical(r.text)
    ensures r == SetVersion(r.number)
  {
    SetVersion(Succ64(v.number))
  }

  // ---------------------------------------------------------------------
  // New / start / Stop
  // ---------------------------------------------------------------------

  /**
    The end of `start`: build the inotify backend over the roots and keep
    it, failing when it reports an error.
   */
  function StartWatching(o: Outcome, fs: FileSystem, kernel: Kernel): (r: Outcome)
    ensures r.disk == o.disk && r.seer.(watch := o.seer.watch) == o.seer
    ensures r.err == Inotify.NewInotify(fs, o.seer.dirs, kernel).err
    ensures r.seer.watch == Inotify.NewInotify(fs, o.seer.dirs, kernel).watch
  {
    var created := Inotify.NewInotify(fs, o.seer.dirs, kernel);
    Outcome(o.seer.(watch := created.watch), o.disk, created.err)
  }

  /**
    `start`: with no tracker file, reset it; otherwise load it (resetting
    when it is corrupt), compare it with the trees and, on a difference,
    bump the version and rebuild.  Then start watching.  A load or compare
    that panics ends the start.
   */
  function Start(s: Seer, fs: FileSystem, disk: Disk, kernel: Kernel): (r: Outcome)
    ensures r.seer.filename == s.filename && r.seer.dirs == s.dirs && r.seer.notify == s.notify
    ensures r.err.None? ==>
              var created := Inotify.NewInotify(fs, s.dirs, kernel);
              created.err.None? && r.seer.watch.Some? && r.seer.watch == created.watch
  {
    if disk.tracker.Missing? then
      var reset := ResetTracker(s, fs, disk);
      if reset.err.Some? then reset else StartWatching(reset, fs, kernel)
    else
      var loaded := LoadTracker(disk.tracker);
      if loaded.Failure? && loaded.error.Crash? then Outcome(s, disk, Some(loaded.error))
      else
        var ready :=
          if loaded.Success? then Outcome(s.(version := loaded.value.version, entries := loaded.value.entries), disk, None)
          else ResetTracker(s, fs, disk);
        if ready.err.Some? then ready
        else match CompareDirs(fs, s.dirs, ready.seer.entries)
          case Crashed(p) => Outcome(ready.seer, ready.disk, Some(Crash(p)))
          case Same => StartWatching(ready, fs, kernel)
          case Differs =>
            var rebuilt := Rebuild(ready.seer.(version := Bumped(ready.seer.version)), fs, ready.disk);
            if rebuilt.err.Some? then rebuilt else StartWatching(rebuilt, fs, kernel)
  }

  /** The result of `New`: the Seer when construction succeeded, the store, and the error. */
  datatype Opened = Opened(seer: Option<Seer>, disk: Disk, err: Option<Fault>)

  /**
    `New(filename, dirs, cb)`: the file name must be given, at least one
    root must be given, and every root must exist, checked in that order
    before anything is touched; then `start`, whose failure discards the Seer.
   */
  function New(filename: string, dirs: seq<Path>, notify: bool, fs: FileSystem, disk: Disk, kernel: Kernel): (r: Opened)
    ensures filename == "" ==> r == Opened(None, disk, Some(NoTrackerFile))
    ensures filename != "" && |dirs| == 0 ==> r == Opened(None, disk, Some(NoDirectories))
    ensures filename != "" && |dirs| > 0 && !AllExist(fs, dirs) ==>
              r.seer.None? && r.disk == disk && r.err.Some? && r.err.value.DirectoryNotFound? &&
              r.err.value.dir in dirs && r.err.value.dir !in fs
    ensures r.seer.Some? <==> r.err.None?
    ensures r.seer.Some? ==>
              && filename != "" && |dirs| > 0 && AllExist(fs, dirs)
              && r.seer.value.filename == filename && r.seer.value.dirs == dirs && r.seer.value.watch.Some?
              && r.seer.value.watch == Inotify.NewInotify(fs, dirs, kernel).watch
              && Inotify.NewInotify(fs, dirs, kernel).err.None?
  {
    if filename == "" then Opened(None, disk, Some(NoTrackerFile))
    else if |dirs| == 0 then Opened(None, disk, Some(NoDirectories))
    else match FirstMissing(fs, dirs)
      case Some(d) => Opened(None, disk, Some(DirectoryNotFound(d)))
      case None =>
        var started := Start(Fresh(filename, dirs, notify), fs, disk, kernel);
        if started.err.Some? then Opened(None, started.disk, started.err)
        else Opened(Some(started.seer), started.disk, None)
  }

  /**
    `Stop`: stop the inotify backend when there is one.  Afterwards no
    watcher is left for a later stop to close; ids, directories and the
    rest of the Seer are kept.
   */
  function Stop(s: Seer): (r: Seer)
    ensures r.watch.Some? <==> s.watch.Some?
    ensures r.(watch := s.watch) == s
    ensures s.watch.Some? ==>
              && Inotify.Closes(r.watch.value) == {}
              && r.watch.value.watchers.Keys == s.watch.value.watchers.Keys
              && r.watch.value.dirs == s.watch.value.dirs
              && r.watch.value.nextId == s.watch.value.nextId
  {
    if s.watch.Some? then
      Inotify.StopIdempotent(s.watch.value);
      s.(watch := Some(Inotify.Stop(s.watch.value)))
    else s
  }

  // ---------------------------------------------------------------------
  // onChange
  // ---------------------------------------------------------------------

  /** What a change callback leaves: the new state, the store, the fatal fault if any, and the client notification. */
  datatype Changed = Changed(seer: Seer, disk: Disk, fatal: Option<Fault>, notified: Option<string>)

  /**
    `onChange(dir)`: compare; on a difference bump the version; always
    rebuild and save the tracker, any failure being fatal; review the
    watchers; then hand the client the version text.
   */
  function OnChange(s: Seer, fs: FileSystem, disk: Disk, kernel: Kernel): (r: Changed)
    ensures r.fatal.None? ==> r.notified == (if s.notify then Some(r.seer.version.text) else None)
    ensures r.fatal.Some? ==> r.notified.None? && r.fatal.value.Crash?
    ensures r.seer.filename == s.filename && r.seer.dirs == s.dirs && r.seer.notify == s.notify
    ensures r.fatal.None? ==> s.watch.Some? && r.seer.watch == Some(Inotify.Review(s.watch.value, s.dirs, fs, kernel).0)
  {
    match CompareDirs(fs, s.dirs, s.entries)
    case Crashed(p) => Changed(s, disk, Some(Crash(p)), None)
    case _ =>
      var verdict := CompareDirs(fs, s.dirs, s.entries);
      var bumped := if verdict == Differs then s.(version := Bumped(s.version)) else s;
      var rebuilt := Rebuild(bumped, fs, disk);
      if rebuilt.err.Some? then
        var e := rebuilt.err.value;
        Changed(rebuilt.seer, rebuilt.disk, Some(if e.Crash? then e else if e == SaveFailed then Crash(SaveAborted) else Crash(ScanAborted(e))), None)
      else if rebuilt.seer.watch.None? then Changed(rebuilt.seer, rebuilt.disk, Some(Crash(NilWatcher)), None)
      else
        var reviewed := Inotify.Review(rebuilt.seer.watch.value, s.dirs, fs, kernel);
        var s' := rebuilt.seer.(watch := Some(reviewed.0));
        Changed(s', rebuilt.disk, None, if s.notify then Some(s'.version.text) else None)
  }

  /**
    A change callback bumps the version by exactly one when, and only when,
    the comparison found a stale record; otherwise the version and its text
    stay as they were, so the version never decreases below the wrap point.
   */
  lemma OnChangeBumpsIffDiffers(s: Seer, fs: FileSystem, disk: Disk, kernel: Kernel)
    requires AllExist(fs, s.dirs) && WellFormed(s.entries)
    requires OnChange(s, fs, disk, kernel).fatal.None?
    ensures var v := OnChange(s, fs, disk, kernel).seer.version;
            && (CompareDirs(fs, s.dirs, s.entries) == Differs <==>
                  exists i | 0 <= i < |AllVisits(fs, s.dirs)| :: Stale(s.entries, AllVisits(fs, s.dirs)[i]))
            && (CompareDirs(fs, s.dirs, s.entries) == Differs && s.version.number < MaxInt64 ==>
                  v.number == s.version.number + 1)
            && (CompareDirs(fs, s.dirs, s.entries) != Differs ==> v == s.version)
            && (s.version.number < MaxInt64 ==> v.number >= s.version.number)
  {
    CompareDirsDiffersIffStale(fs, s.dirs, s.entries);
  }

  /**
    A change callback that ends normally leaves the tracker file holding
    exactly the snapshot of the trees at the new version, and the Seer
    holding the same entries.
   */
  lemma OnChangePersistsSnapshot(s: Seer, fs: FileSystem, disk: Disk, kernel: Kernel)
    requires OnChange(s, fs, disk, kernel).fatal.None?
    ensures var r := OnChange(s, fs, disk, kernel);
            && AllExist(fs, s.dirs)
            && r.seer.entries == Snapshot(r.seer.version.text, fs, s.dirs)
            && r.disk.tracker == Records(r.seer.entries)
  {
  }

  /**
    The normal path of a change callback: with every root present, a
    writable tracker, a watcher in place and a comparison that does not
    panic, the callback ends normally at the bumped version when the
    comparison found a difference and at the same version otherwise, and
    the tracker holds the snapshot at that version.
   */
  lemma OnChangeSucceeds(s: Seer, fs: FileSystem, disk: Disk, kernel: Kernel)
    requires AllExist(fs, s.dirs) && disk.writable && s.watch.Some?
    requires !CompareDirs(fs, s.dirs, s.entries).Crashed?
    ensures var r := OnChange(s, fs, disk, kernel);
            && r.fatal.None? && r.seer.watch == Some(Inotify.Review(s.watch.value, s.dirs, fs, kernel).0)
            && r.seer.version == (if CompareDirs(fs, s.dirs, s.entries) == Differs then Bumped(s.version) else s.version)
            && r.seer.entries == Snapshot(r.seer.version.text, fs, s.dirs)
            && r.disk == Disk(Records(r.seer.entries), true)
  {
  }

  /**
    The watcher `New` keeps holds the scanned directories by index, and a
    change callback over the same tree leaves it as it is: `review` finds
    nothing to restart.
   */
  lemma NewThenQuietChangeKeepsWatch(filename: string, dirs: seq<Path>, notify: bool, fs: FileSystem, disk: Disk,
                                     kernel: Kernel, later: Kernel)
    requires New(filename, dirs, notify, fs, disk, kernel).seer.Some?
    ensures var made := New(filename, dirs, notify, fs, disk, kernel);
            var s := made.seer.value;
            && s.watch.Some? && s.watch.value.dirs == Inotify.Indexed(AllDirs(fs, dirs))
            && (OnChange(s, fs, made.disk, later).fatal.None? ==> OnChange(s, fs, made.disk, later).seer.watch == s.watch)
  {
    var made := New(filename, dirs, notify, fs, disk, kernel);
    Inotify.ReviewOfStartedTreeIsNoOp(fs, dirs, kernel);
    var w := made.seer.value.watch.value;
    assert Inotify.Review(w, dirs, fs, later).0 == w;
  }

  /**
    Against an unchanged tree whose paths are distinct and none is the
    version text, a second callback right after a successful one finds no
    difference and keeps the version.
   */
  lemma OnChangeSettles(s: Seer, fs: FileSystem, disk: Disk, kernel: Kernel)
    requires OnChange(s, fs, disk, kernel).fatal.None?
    requires Consistent(AllVisits(fs, s.dirs)) || !AllExist(fs, s.dirs)
    requires !AllExist(fs, s.dirs) || !HasFile(AllVisits(fs, s.dirs), OnChange(s, fs, disk, kernel).seer.version.text)
    ensures var r := OnChange(s, fs, disk, kernel);
            CompareDirs(fs, s.dirs, r.seer.entries) == Same
  {
    var r := OnChange(s, fs, disk, kernel);
    SnapshotMatchesItsTree(fs, s.dirs, r.seer.version.text);
  }

  // ---------------------------------------------------------------------
  // Startup cases
  // ---------------------------------------------------------------------

  /** Nothing refused by the kernel and at least one root directory: watching starts. */
  predicate Watchable(fs: FileSystem, dirs: seq<Path>, kernel: Kernel) {
    |AllDirs(fs, dirs)| > 0 && kernel(0) == {}
  }

  lemma WatchableStarts(fs: FileSystem, dirs: seq<Path>, kernel: Kernel)
    requires Watchable(fs, dirs, kernel)
    ensures Inotify.NewInotify(fs, dirs, kernel).err.None?
  {
    StartFailsIffRefused(AllDirs(fs, dirs), kernel(0));
  }

  /** With no tracker file, start writes the snapshot at version 1. */
  lemma StartWithoutTracker(s: Seer, fs: FileSystem, disk: Disk, kernel: Kernel)
    requires disk.tracker.Missing? && disk.writable && AllExist(fs, s.dirs) && Watchable(fs, s.dirs, kernel)
    ensures var r := Start(s, fs, disk, kernel);
            && r.err.None?
            && r.seer.version == SetVersion(1) && r.seer.version.text == "1" && r.seer.version.number == 1
            && r.seer.entries == Snapshot("1", fs, s.dirs)
            && r.disk == Disk(Records(Snapshot("1", fs, s.dirs)), true)
  {
    WatchableStarts(fs, s.dirs, kernel);
  }

  /**
    With a loadable tracker and no stale record, start keeps the loaded
    version, text included, and leaves the tracker file untouched.
   */
  lemma StartUnchangedKeepsVersion(s: Seer, fs: FileSystem, disk: Disk, kernel: Kernel)
    requires LoadTracker(disk.tracker).Success?
    requires AllExist(fs, s.dirs) && WellFormed(LoadTracker(disk.tracker).value.entries)
    requires forall v | v in AllVisits(fs, s.dirs) :: !Stale(LoadTracker(disk.tracker).value.entries, v)
    requires Watchable(fs, s.dirs, kernel)
    ensures var r := Start(s, fs, disk, kernel);
            && r.err.None?
            && r.seer.version == LoadTracker(disk.tracker).value.version
            && r.disk == disk
  {
    var entries := LoadTracker(disk.tracker).value.entries;
    CompareDirsDiffersIffStale(fs, s.dirs, entries);
    assert CompareDirs(fs, s.dirs, entries) == Same;
    WatchableStarts(fs, s.dirs, kernel);
  }

  /**
    With a loadable tracker holding a stale record, start bumps the loaded
    version by one and writes the snapshot at the new version.
   */
  lemma StartChangedBumps(s: Seer, fs: FileSystem, disk: Disk, kernel: Kernel)
    requires LoadTracker(disk.tracker).Success?
    requires AllExist(fs, s.dirs) && WellFormed(LoadTracker(disk.tracker).value.entries) && disk.writable
    requires exists v | v in AllVisits(fs, s.dirs) :: Stale(LoadTracker(disk.tracker).value.entries, v)
    requires LoadTracker(disk.tracker).value.version.number < MaxInt64
    requires Watchable(fs, s.dirs, kernel)
    ensures var r := Start(s, fs, disk, kernel);
            && r.err.None?
            && r.seer.version.number == LoadTracker(disk.tracker).value.version.number + 1
            && r.disk.tracker == Records(Snapshot(r.seer.version.text, fs, s.dirs))
  {
    var entries := LoadTracker(disk.tracker).value.entries;
    CompareDirsDiffersIffStale(fs, s.dirs, entries);
    StartOnDifference(s, fs, disk, kernel);
    WatchableStarts(fs, s.dirs, kernel);
  }

  /** A loaded tracker that differs from the tree is rebuilt at the bumped version before watching starts. */
  lemma StartOnDifference(s: Seer, fs: FileSystem, disk: Disk, kernel: Kernel)
    requires LoadTracker(disk.tracker).Success?
    requires CompareDirs(fs, s.dirs, LoadTracker(disk.tracker).value.entries) == Differs
    ensures var loaded := LoadTracker(disk.tracker).value;
            var rebuilt := Rebuild(s.(version := Bumped(loaded.version), entries := loaded.entries), fs, disk);
            Start(s, fs, disk, kernel) == if rebuilt.err.Some? then rebuilt else StartWatching(rebuilt, fs, kernel)
  {
    var loaded := LoadTracker(disk.tracker).value;
    var ready := Outcome(s.(version := loaded.version, entries := loaded.entries), disk, None);
    assert CompareDirs(fs, s.dirs, ready.seer.entries) == Differs;
  }

  /**
    A tracker that exists but does not load (and does not panic) is reset
    to version 1; the comparison that follows runs against the fresh
    snapshot.
   */
  lemma StartCorruptResets(s: Seer, fs: FileSystem, disk: Disk, kernel: Kernel)
    requires !disk.tracker.Missing? && LoadTracker(disk.tracker).Failure? && !LoadTracker(disk.tracker).error.Crash?
    requires disk.writable && AllExist(fs, s.dirs)
    requires Consistent(AllVisits(fs, s.dirs)) && !HasFile(AllVisits(fs, s.dirs), "1")
    requires Watchable(fs, s.dirs, kernel)
    ensures var r := Start(s, fs, disk, kernel);
            && r.err.None?
            && r.seer.version.number == 1
            && r.disk.tracker == Records(Snapshot("1", fs, s.dirs))
  {
    SnapshotMatchesItsTree(fs, s.dirs, "1");
    WatchableStarts(fs, s.dirs, kernel);
  }

  /** A tracker whose first record is a lone field makes start panic, whatever the trees hold. */
  lemma StartShortRecordPanics(s: Seer, fs: FileSystem, disk: Disk, kernel: Kernel, tag: string)
    requires disk.tracker == Records([[tag]]) && tag == VersionTag
    ensures Start(s, fs, disk, kernel).err == Some(Crash(RecordTooShort))
  {
    assert LoadTracker(disk.tracker) == Failure(Crash(RecordTooShort));
  }

  // ---------------------------------------------------------------------
  // A session
  // ---------------------------------------------------------------------

  /** Roots `A` and `B`, each holding one file, with the file in `A` at time `a` and `B`'s extra files. */
  function Tree(a: Int64, extra: seq<Child>): FileSystem {
    map["A" := Dir([Child("a", File(a))]), "B" := Dir([Child("b", File(3))] + extra)]
  }

  /** A kernel that never refuses a watch. */
  function Willing(): Kernel {
    (n: nat) => {}
  }

  const Roots: seq<Path> := ["A", "B"]

  lemma OneFileWalk(root: Path, name: string, m: Int64)
    ensures Walk(root, Dir([Child(name, File(m))])) == [DirVisit(root), FileVisit(root + "/" + name, m)]
  {
    var cs := [Child(name, File(m))];
    assert cs[1..] == [];
    assert WalkChildren(root, cs) == [FileVisit(Join(root, name), m)];
  }

  lemma RootsVisits(fs: FileSystem)
    requires AllExist(fs, Roots)
    ensures AllVisits(fs, Roots) == Walk("A", fs["A"]) + Walk("B", fs["B"])
  {
    assert Roots[1..] == ["B"] && Roots[1..][1..] == [];
  }

  /** The tree and snapshot of the session before a file is added to `B`. */
  lemma TwoFiles(a: Int64, text: string)
    ensures AllExist(Tree(a, []), Roots) && Consistent(AllVisits(Tree(a, []), Roots))
    ensures AllVisits(Tree(a, []), Roots) == [DirVisit("A"), FileVisit("A/a", a), DirVisit("B"), FileVisit("B/b", 3)]
    ensures Snapshot(text, Tree(a, []), Roots) == [VersionRecord(text), FileRecord("A/a", a), FileRecord("B/b", 3)]
  {
    var fs := Tree(a, []);
    OneFileWalk("A", "a", a);
    OneFileWalk("B", "b", 3);
    assert [Child("b", File(3))] + [] == [Child("b", File(3))];
    assert "A" + "/" + "a" == "A/a" && "B" + "/" + "b" == "B/b";
    RootsVisits(fs);
    FileRecordsAppend([DirVisit("A"), FileVisit("A/a", a)], [DirVisit("B"), FileVisit("B/b", 3)]);
  }

  lemma TwoFileWalk()
    ensures Walk("B", Dir([Child("b", File(3))] + [Child("c", File(4))])) ==
              [DirVisit("B"), FileVisit("B/b", 3), FileVisit("B/c", 4)]
  {
    var cs := [Child("b", File(3))] + [Child("c", File(4))];
    assert cs[1..] == [Child("c", File(4))] && cs[1..][1..] == [];
    assert Join("B", "b") == "B/b" && Join("B", "c") == "B/c";
    assert WalkChildren("B", cs[1..]) == [FileVisit("B/c", 4)];
  }

  /** The tree and snapshot of the session after `c` is added to `B`. */
  lemma ThreeFiles(text: string)
    ensures AllExist(Tree(2, [Child("c", File(4))]), Roots)
    ensures AllVisits(Tree(2, [Child("c", File(4))]), Roots) ==
              [DirVisit("A"), FileVisit("A/a", 2), DirVisit("B"), FileVisit("B/b", 3), FileVisit("B/c", 4)]
    ensures Snapshot(text, Tree(2, [Child("c", File(4))]), Roots) ==
              [VersionRecord(text), FileRecord("A/a", 2), FileRecord("B/b", 3), FileRecord("B/c", 4)]
  {
    var fs := Tree(2, [Child("c", File(4))]);
    OneFileWalk("A", "a", 2);
    assert "A" + "/" + "a" == "A/a";
    TwoFileWalk();
    RootsVisits(fs);
    FileRecordsAppend([DirVisit("A"), FileVisit("A/a", 2)], [DirVisit("B"), FileVisit("B/b", 3), FileVisit("B/c", 4)]);
  }

  lemma SmallDecimals()
    ensures FormatInt(1) == "1" && FormatInt(2) == "2" && FormatInt(3) == "3" && FormatInt(4) == "4"
  {
    assert Digits(1) == [DigitChar(1)] && Digits(2) == [DigitChar(2)];
    assert Digits(3) == [DigitChar(3)] && Digits(4) == [DigitChar(4)];
  }

  /** A Seer of the session, between callbacks, at version `v` over the snapshot `entries`. */
  predicate Settled(s: Seer, disk: Disk, v: Int64, entries: seq<Record>) {
    && s.dirs == Roots && s.notify && s.watch.Some?
    && s.version == SetVersion(v) && s.entries == entries
    && disk == Disk(Records(entries), true)
  }

  /** Starting without a tracker over the first tree settles at version 1. */
  lemma SessionStart()
    ensures var made := New("tracker.csv", Roots, true, Tree(1, []), Disk(Missing, true), Willing());
            && made.seer.Some?
            && Settled(made.seer.value, made.disk, 1, Snapshot("1", Tree(1, []), Roots))
  {
    var fs := Tree(1, []);
    TwoFiles(1, "1");
    ExistingRootListed(fs, Roots, "A");
    StartWithoutTracker(Fresh("tracker.csv", Roots, true), fs, Disk(Missing, true), Willing());
  }

  /** Touching the file in `A` is a difference: the callback settles at version 2 and reports "2". */
  lemma SessionTouch(s: Seer, disk: Disk)
    requires Settled(s, disk, 1, Snapshot("1", Tree(1, []), Roots))
    ensures var r := OnChange(s, Tree(2, []), disk, Willing());
            && r.fatal.None? && r.notified == Some("2")
            && Settled(r.seer, r.disk, 2, Snapshot("2", Tree(2, []), Roots))
  {
    TwoFiles(1, "1");
    TwoFiles(2, "2");
    TouchDiffers();
    SmallDecimals();
    assert Bumped(s.version) == SetVersion(2);
    OnChangeSucceeds(s, Tree(2, []), disk, Willing());
  }

  /** The comparison after the touch: the file in `A` is stale. */
  lemma TouchDiffers()
    ensures CompareDirs(Tree(2, []), Roots, Snapshot("1", Tree(1, []), Roots)) == Differs
  {
    TwoFiles(1, "1");
    TwoFiles(2, "2");
    var before := AllVisits(Tree(1, []), Roots);
    var vs := AllVisits(Tree(2, []), Roots);
    assert !HasFile(before, "1");
    assert before[1].path == vs[1].path && before[1].mtime != vs[1].mtime;
    ModifiedFileDiffers(before, "1", vs, 1);
    CompareDirsIsCompareWalk(Tree(2, []), Roots, Snapshot("1", Tree(1, []), Roots));
  }

  /** The comparison after the addition: nothing known changed, the new file is not looked at. */
  lemma AddIsSame()
    ensures CompareDirs(Tree(2, [Child("c", File(4))]), Roots, Snapshot("2", Tree(2, []), Roots)) == Same
  {
    TwoFiles(2, "2");
    ThreeFiles("2");
    var before := AllVisits(Tree(2, []), Roots);
    var vs := AllVisits(Tree(2, [Child("c", File(4))]), Roots);
    assert vs[1] == before[1] && vs[3] == before[3];
    assert !HasFile(before, "B/c");
    AdditionsAreNotDifferences(before, "2", vs);
    CompareDirsIsCompareWalk(Tree(2, [Child("c", File(4))]), Roots, Snapshot("2", Tree(2, []), Roots));
  }

  /** Adding a file to `B` is no difference: the callback records it, keeps version 2 and reports "2". */
  lemma SessionAdd(s: Seer, disk: Disk)
    requires Settled(s, disk, 2, Snapshot("2", Tree(2, []), Roots))
    ensures var r := OnChange(s, Tree(2, [Child("c", File(4))]), disk, Willing());
            && r.fatal.None? && r.notified == Some("2")
            && Settled(r.seer, r.disk, 2, Snapshot("2", Tree(2, [Child("c", File(4))]), Roots))
  {
    ThreeFiles("2");
    AddIsSame();
    OnChangeSucceeds(s, Tree(2, [Child("c", File(4))]), disk, Willing());
  }

  /**
    Start with no tracker gives version 1; touching the file in `A` makes
    the next callback report version 2; adding a file to `B` makes the one
    after record the new file while still reporting version 2.
   */
  lemma Session()
    ensures var made := New("tracker.csv", Roots, true, Tree(1, []), Disk(Missing, true), Willing());
            && made.seer.Some? && made.seer.value.version.text == "1"
            && var touched := OnChange(made.seer.value, Tree(2, []), made.disk, Willing());
            && touched.fatal.None? && touched.notified == Some("2")
            && var added := OnChange(touched.seer, Tree(2, [Child("c", File(4))]), touched.disk, Willing());
            && added.fatal.None? && added.notified == Some("2")
            && added.disk.tracker == Records([["V", "2", "reseer"], ["F", "A/a", "2"], ["F", "B/b", "3"], ["F", "B/c", "4"]])
  {
    SessionStart();
    var made := New("tracker.csv", Roots, true, Tree(1, []), Disk(Missing, true), Willing());
    SmallDecimals();
    SessionTouch(made.seer.value, made.disk);
    var touched := OnChange(made.seer.value, Tree(2, []), made.disk, Willing());
    SessionAdd(touched.seer, touched.disk);
    ThreeFiles("2");
  }
}

=== FILE: scanner.dfy ===
/**
  The directory scanner of util.go: keep the configured roots that exist,
  then list every directory found by walking each of them, roots included,
  in walk order.  Both watcher backends and the tracker's watch reviews use
  it to decide which directories to watch.
 */
module Scanner {
  import opened FileTree

  datatype DirScanner = DirScanner(dirs: seq<Path>, allDirs: seq<Path>)

  /** `xs` is `ys` with some elements dropped, the rest in their order. */
  predicate IsSubsequence<T(==)>(xs: seq<T>, ys: seq<T>)
    decreases |ys|
  {
    if |xs| == 0 then true
    else if |ys| == 0 then false
    else if xs[0] == ys[0] then IsSubsequence(xs[1..], ys[1..])
    else IsSubsequence(xs, ys[1..])
  }

  /** The roots that `os.Stat` finds, in their given order; the others are skipped. */
  function ExistingRoots(fs: FileSystem, roots: seq<Path>): (r: seq<Path>)
    ensures forall p :: p in r <==> p in roots && p in fs
    decreases |roots|
  {
    if |roots| == 0 then []
    else
      var rest := ExistingRoots(fs, roots[1..]);
      if roots[0] in fs then [roots[0]] + rest else rest
  }

  /**
    The kept roots are exactly the existing ones, each as often as it was
    given, in their original relative order.
   */
  lemma {:induction false} ExistingRootsIsFilter(fs: FileSystem, roots: seq<Path>)
    ensures forall p :: multiset(ExistingRoots(fs, roots))[p] == if p in fs then multiset(roots)[p] else 0
    ensures IsSubsequence(ExistingRoots(fs, roots), roots)
    decreases |roots|
  {
    if |roots| > 0 {
      ExistingRootsIsFilter(fs, roots[1..]);
      assert roots == [roots[0]] + roots[1..];
      var rest := ExistingRoots(fs, roots[1..]);
      if roots[0] in fs {
        assert ([roots[0]] + rest)[1..] == rest;
      } else if |rest| > 0 {
        assert rest[0] in fs;
      }
    }
  }

  /** The paths the scanner's walk callback appends: directories only. */
  function DirsOf(vs: seq<Visit>): (ds: seq<Path>)
    ensures forall d :: d in ds <==> DirVisit(d) in vs
    ensures |ds| <= |vs|
    decreases |vs|
  {
    if |vs| == 0 then []
    else
      var rest := DirsOf(vs[1..]);
      assert vs == [vs[0]] + vs[1..];
      if vs[0].DirVisit? then [vs[0].path] + rest else rest
  }

  /** The directories under one existing root, the root first when it is one. */
  function RootDirs(fs: FileSystem, root: Path): seq<Path>
    requires root in fs
  {
    DirsOf(Walk(root, fs[root]))
  }

  /**
    The result of `scan`: the list starts empty and each root's walk is
    appended in root order (walk errors are discarded).
   */
  function Enumerate(fs: FileSystem, dirs: seq<Path>): (all: seq<Path>)
    requires forall d | d in dirs :: d in fs
    ensures forall p :: p in all <==> exists d | d in dirs :: DirVisit(p) in Walk(d, fs[d])
    decreases |dirs|
  {
    if |dirs| == 0 then []
    else RootDirs(fs, dirs[0]) + Enumerate(fs, dirs[1..])
  }

  /** `NewDirScanner`: filter the roots, then scan them. */
  function NewDirScanner(fs: FileSystem, roots: seq<Path>): (s: DirScanner)
    ensures s.dirs == ExistingRoots(fs, roots)
    ensures forall p :: p in s.allDirs <==>
              exists r | r in roots && r in fs :: DirVisit(p) in Walk(r, fs[r])
  {
    var dirs := ExistingRoots(fs, roots);
    DirScanner(dirs, Enumerate(fs, dirs))
  }

  /** What the watchers take from a fresh scanner: `NewDirScanner(roots).AllDirs`. */
  function AllDirs(fs: FileSystem, roots: seq<Path>): seq<Path> {
    NewDirScanner(fs, roots).allDirs
  }

  /** Every existing root that is a directory is listed, since a walk visits its root first. */
  lemma ExistingRootListed(fs: FileSystem, roots: seq<Path>, r: Path)
    requires r in roots && r in fs && fs[r].Dir?
    ensures r in AllDirs(fs, roots)
  {
    assert Walk(r, fs[r])[0] == DirVisit(r);
  }

  /** Enumerating a concatenation of roots concatenates the enumerations. */
  lemma {:induction false} EnumerateAppend(fs: FileSystem, a: seq<Path>, b: seq<Path>)
    requires forall d | d in a + b :: d in fs
    ensures Enumerate(fs, a + b) == Enumerate(fs, a) + Enumerate(fs, b)
    decreases |a|
  {
    if |a| == 0 {
      assert a + b == b;
    } else {
      assert (a + b)[0] == a[0];
      assert (a + b)[1..] == a[1..] + b;
      EnumerateAppend(fs, a[1..], b);
      calc {
        Enumerate(fs, a + b);
        RootDirs(fs, a[0]) + Enumerate(fs, a[1..] + b);
        RootDirs(fs, a[0]) + (Enumerate(fs, a[1..]) + Enumerate(fs, b));
        (RootDirs(fs, a[0]) + Enumerate(fs, a[1..])) + Enumerate(fs, b);
      }
    }
  }

  /** The scan of `a + b` lists `a`'s directories, then `b`'s. */
  lemma {:induction false} AllDirsAppend(fs: FileSystem, a: seq<Path>, b: seq<Path>)
    ensures AllDirs(fs, a + b) == AllDirs(fs, a) + AllDirs(fs, b)
    decreases |a|
  {
    ExistingRootsAppend(fs, a, b);
    EnumerateAppend(fs, ExistingRoots(fs, a), ExistingRoots(fs, b));
  }

  lemma {:induction false} ExistingRootsAppend(fs: FileSystem, a: seq<Path>, b: seq<Path>)
    ensures ExistingRoots(fs, a + b) == ExistingRoots(fs, a) + ExistingRoots(fs, b)
    decreases |a|
  {
    if |a| == 0 {
      assert a + b == b;
    } else {
      assert (a + b)[0] == a[0];
      assert (a + b)[1..] == a[1..] + b;
      ExistingRootsAppend(fs, a[1..], b);
      var head := if a[0] in fs then [a[0]] else [];
      calc {
        ExistingRoots(fs, a + b);
        head + ExistingRoots(fs, a[1..] + b);
        head + (ExistingRoots(fs, a[1..]) + ExistingRoots(fs, b));
        (head + ExistingRoots(fs, a[1..])) + ExistingRoots(fs, b);
      }
    }
  }

  /** A root given twice is walked twice, so its directory is listed twice. */
  lemma OverlappingRootsDuplicate(fs: FileSystem, r: Path)
    requires r in fs && fs[r].Dir?
    ensures multiset(AllDirs(fs, [r, r]))[r] >= 2
  {
    AllDirsAppend(fs, [r], [r]);
    assert [r] + [r] == [r, r];
    var one := AllDirs(fs, [r]);
    ExistingRootListed(fs, [r], r);
    assert multiset(one + one)[r] == 2 * multiset(one)[r];
  }

  /** The scan lists nothing exactly when no root is an existing directory. */
  lemma AllDirsEmpty(fs: FileSystem, roots: seq<Path>)
    ensures |AllDirs(fs, roots)| == 0 <==> forall r | r in roots && r in fs :: fs[r].File?
  {
    if |AllDirs(fs, roots)| == 0 {
      forall r | r in roots && r in fs
        ensures fs[r].File?
      {
        if fs[r].Dir? {
          ExistingRootListed(fs, roots, r);
        }
      }
    } else {
      var p := AllDirs(fs, roots)[0];
      var r :| r in roots && r in fs && DirVisit(p) in Walk(r, fs[r]);
      assert fs[r].Dir?;
    }
  }
}

=== FILE: tracker.dfy ===
/**
  The tracker snapshot of reseer.go: a record list whose first record is
  `["V", versionText, "reseer"]` followed by one `["F", path, nanos]`
  record per file found under the configured roots.  This module holds the
  record helpers behind `setVersion`, `initEntries`, `scanDirs`/`scanDir`,
  `compareDirs`/`compareDir`, `findDir` and `loadTracker`, and the abstract
  store that `saveTracker` writes (CSV encoding is taken to be the identity
  on record lists).
 */
module Tracker {
  import opened Wrappers
  import opened Decimal
  import opened FileTree
  import opened Faults

  /** One CSV line of the tracker file. */
  type Record = seq<string>

  const VersionTag := "V"
  const FileTag := "F"
  const Signature := "reseer"

  function VersionRecord(text: string): Record {
    [VersionTag, text, Signature]
  }

  function FileRecord(path: Path, mtime: Int64): Record {
    [FileTag, path, FormatInt(mtime)]
  }

  /** The `version`/`versionTxt` pair of a Seer. */
  datatype Version = Version(number: Int64, text: string)

  /** `setVersion(v)`: the number with its canonical decimal text. */
  function SetVersion(v: Int64): (r: Version)
    ensures r.number == v
    ensures ParseInt64(r.text) == Some(v) && Canonical(r.text)
    ensures forall u: Int64 :: FormatInt(u) == r.text ==> u == v
  {
    ParseFormatRoundTrip(v);
    forall u: Int64 | FormatInt(u) == FormatInt(v) ensures u == v {
      FormatIntInjective(u, v);
    }
    Version(v, FormatInt(v))
  }

  /** `initEntries`: the entries restart as the lone version record. */
  function InitEntries(text: string): (r: seq<Record>)
    ensures WellFormed(r) && |r| == 1
    ensures r[0][0] == VersionTag && r[0][1] == text && r[0][2] == Signature
  {
    [VersionRecord(text)]
  }

  /** Every record has the three fields `compareDir` indexes. */
  predicate WellFormed(entries: seq<Record>) {
    forall i | 0 <= i < |entries| :: |entries[i]| >= 3
  }

  /** The roots all exist, so no walk callback is handed a nil FileInfo. */
  predicate AllExist(fs: FileSystem, roots: seq<Path>) {
    forall r | r in roots :: r in fs
  }

  /** Everything the walks of `roots` visit, root after root. */
  function AllVisits(fs: FileSystem, roots: seq<Path>): seq<Visit>
    requires AllExist(fs, roots)
    decreases |roots|
  {
    if |roots| == 0 then [] else Walk(roots[0], fs[roots[0]]) + AllVisits(fs, roots[1..])
  }

  /** The file records a snapshot holds for a walk: one per file, in walk order. */
  function FileRecords(vs: seq<Visit>): (rs: seq<Record>)
    ensures WellFormed(rs)
    ensures forall i | 0 <= i < |rs| :: rs[i][0] == FileTag
    decreases |vs|
  {
    if |vs| == 0 then []
    else
      var head := if vs[0].FileVisit? then [FileRecord(vs[0].path, vs[0].mtime)] else [];
      head + FileRecords(vs[1..])
  }

  /** The snapshot of the tree under `roots` at version text `text`. */
  function Snapshot(text: string, fs: FileSystem, roots: seq<Path>): seq<Record>
    requires AllExist(fs, roots)
  {
    InitEntries(text) + FileRecords(AllVisits(fs, roots))
  }

  // ---------------------------------------------------------------------
  // scanDirs / scanDir
  // ---------------------------------------------------------------------

  /** The entries a walk leaves behind and the error it ended with. */
  datatype Scan = Scan(entries: seq<Record>, err: Option<Fault>)

  /**
    `filepath.Walk(root, s.scanDir)` over the visits of one root: directories
    add nothing; a file adds its record once its timestamp text reads back
    as the same number, and otherwise stops the walk with the BUG error.
   */
  function ScanWalk(vs: seq<Visit>, entries: seq<Record>): (r: Scan)
    ensures entries <= r.entries
    ensures r.err.Some? ==> r.err.value.TimestampBug?
    ensures WellFormed(entries) ==> WellFormed(r.entries)
    decreases |vs|
  {
    if |vs| == 0 then Scan(entries, None)
    else match vs[0]
      case DirVisit(_) => ScanWalk(vs[1..], entries)
      case FileVisit(p, m) =>
        if ParseInt64(FormatInt(m)) != Some(m) then Scan(entries, Some(TimestampBug(p)))
        else ScanWalk(vs[1..], entries + [FileRecord(p, m)])
  }

  /**
    `scanDirs`: walk every root in turn, keeping only the error of the last
    walk.  A root that no longer exists hands `scanDir` a nil FileInfo,
    whose `IsDir` call panics.
   */
  function ScanDirs(fs: FileSystem, roots: seq<Path>, entries: seq<Record>): (r: Scan)
    ensures (r.err.Some? && r.err.value.Crash?) <==> !AllExist(fs, roots)
  {
    if |roots| > 0 then ScanRootsCrashesIffMissing(fs, roots, Scan(entries, None)); ScanRoots(fs, roots, Scan(entries, None))
    else ScanRoots(fs, roots, Scan(entries, None))
  }

  function ScanRoots(fs: FileSystem, roots: seq<Path>, acc: Scan): (r: Scan)
    decreases |roots|
  {
    if |roots| == 0 then acc
    else if roots[0] !in fs then Scan(acc.entries, Some(Crash(NilFileInfo(roots[0]))))
    else ScanRoots(fs, roots[1..], ScanWalk(Walk(roots[0], fs[roots[0]]), acc.entries))
  }

  /** The loop over the roots only ever appends to the entries it started with. */
  lemma {:induction false} ScanRootsOnlyAppends(fs: FileSystem, roots: seq<Path>, acc: Scan)
    ensures acc.entries <= ScanRoots(fs, roots, acc).entries
    decreases |roots|
  {
    if |roots| > 0 && roots[0] in fs {
      var next := ScanWalk(Walk(roots[0], fs[roots[0]]), acc.entries);
      ScanRootsOnlyAppends(fs, roots[1..], next);
    }
  }

  /**
    A walk's own error is never a panic, so scanning panics exactly when a
    root is missing; the errors of earlier walks are overwritten either way.
   */
  lemma {:induction false} ScanRootsCrashesIffMissing(fs: FileSystem, roots: seq<Path>, acc: Scan)
    requires |roots| > 0
    ensures var r := ScanRoots(fs, roots, acc); (r.err.Some? && r.err.value.Crash?) <==> !AllExist(fs, roots)
    decreases |roots|
  {
    if roots[0] in fs {
      assert AllExist(fs, roots) <==> AllExist(fs, roots[1..]) by {
        assert forall r | r in roots :: r == roots[0] || r in roots[1..];
      }
      if |roots| > 1 {
        ScanRootsCrashesIffMissing(fs, roots[1..], ScanWalk(Walk(roots[0], fs[roots[0]]), acc.entries));
      }
    }
  }

  /**
    The timestamp check never fires for an int64 nanosecond value: a walk
    appends exactly the file records, in walk order, and ends without error.
   */
  lemma {:induction false} ScanWalkAppendsFileRecords(vs: seq<Visit>, entries: seq<Record>)
    ensures ScanWalk(vs, entries) == Scan(entries + FileRecords(vs), None)
    decreases |vs|
  {
    if |vs| > 0 {
      match vs[0]
      case DirVisit(_) =>
        assert FileRecords(vs) == FileRecords(vs[1..]);
        ScanWalkAppendsFileRecords(vs[1..], entries);
      case FileVisit(p, m) =>
        ParseFormatRoundTrip(m);
        assert ScanWalk(vs, entries) == ScanWalk(vs[1..], entries + [FileRecord(p, m)]);
        assert FileRecords(vs) == [FileRecord(p, m)] + FileRecords(vs[1..]);
        ScanWalkAppendsFileRecords(vs[1..], entries + [FileRecord(p, m)]);
        assert entries + [FileRecord(p, m)] + FileRecords(vs[1..])
            == entries + FileRecords(vs);
    }
  }

  lemma {:induction false} ScanRootsAppendsFileRecords(fs: FileSystem, roots: seq<Path>, entries: seq<Record>, err: Option<Fault>)
    requires AllExist(fs, roots) && |roots| > 0
    ensures ScanRoots(fs, roots, Scan(entries, err)) == Scan(entries + FileRecords(AllVisits(fs, roots)), None)
    decreases |roots|
  {
    var vs := Walk(roots[0], fs[roots[0]]);
    var mid := entries + FileRecords(vs);
    ScanRootsStep(fs, roots, entries, err);
    AllVisitsStep(fs, roots);
    if |roots| > 1 {
      ScanRootsAppendsFileRecords(fs, roots[1..], mid, None);
      assert mid + FileRecords(AllVisits(fs, roots[1..])) == entries + (FileRecords(vs) + FileRecords(AllVisits(fs, roots[1..])));
    } else {
      assert AllVisits(fs, roots[1..]) == [];
    }
  }

  /** The first root's walk appends its file records and clears the error. */
  lemma ScanRootsStep(fs: FileSystem, roots: seq<Path>, entries: seq<Record>, err: Option<Fault>)
    requires |roots| > 0 && roots[0] in fs
    ensures ScanRoots(fs, roots, Scan(entries, err)) ==
              ScanRoots(fs, roots[1..], Scan(entries + FileRecords(Walk(roots[0], fs[roots[0]])), None))
  {
    ScanWalkAppendsFileRecords(Walk(roots[0], fs[roots[0]]), entries);
  }

  /** The visits of the roots are the first root's walk followed by the visits of the others. */
  lemma AllVisitsStep(fs: FileSystem, roots: seq<Path>)
    requires AllExist(fs, roots) && |roots| > 0
    ensures AllExist(fs, roots[1..])
    ensures FileRecords(AllVisits(fs, roots)) ==
              FileRecords(Walk(roots[0], fs[roots[0]])) + FileRecords(AllVisits(fs, roots[1..]))
  {
    assert forall r | r in roots[1..] :: r in roots;
    FileRecordsAppend(Walk(roots[0], fs[roots[0]]), AllVisits(fs, roots[1..]));
  }



  /**
    Scanning with every root present appends exactly the snapshot's file
    records and succeeds; a missing root panics.
   */
  lemma ScanDirsIsSnapshot(fs: FileSystem, roots: seq<Path>, text: string)
    ensures AllExist(fs, roots) ==>
              ScanDirs(fs, roots, InitEntries(text)) == Scan(Snapshot(text, fs, roots), None)
    ensures !AllExist(fs, roots) ==> ScanDirs(fs, roots, InitEntries(text)).err.Some?
  {
    if AllExist(fs, roots) {
      if |roots| > 0 {
        ScanRootsAppendsFileRecords(fs, roots, InitEntries(text), None);
      }
    } else {
      ScanRootsMissing(fs, roots, Scan(InitEntries(text), None));
    }
  }

  lemma {:induction false} ScanRootsMissing(fs: FileSystem, roots: seq<Path>, acc: Scan)
    requires !AllExist(fs, roots)
    ensures ScanRoots(fs, roots, acc).err.Some? && ScanRoots(fs, roots, acc).err.value.Crash?
    decreases |roots|
  {
    if roots[0] in fs {
      ScanRootsMissing(fs, roots[1..], ScanWalk(Walk(roots[0], fs[roots[0]]), acc.entries));
    }
  }

  /** Whatever error a walk ends with does not depend on the entries so far. */
  lemma {:induction false} ScanWalkErrorIndependent(vs: seq<Visit>, e1: seq<Record>, e2: seq<Record>)
    ensures ScanWalk(vs, e1).err == ScanWalk(vs, e2).err
    decreases |vs|
  {
    if |vs| > 0 {
      match vs[0]
      case DirVisit(_) =>
        ScanWalkErrorIndependent(vs[1..], e1, e2);
      case FileVisit(p, m) =>
        ScanWalkErrorIndependent(vs[1..], e1 + [FileRecord(p, m)], e2 + [FileRecord(p, m)]);
    }
  }

  /**
    When every root exists, `scanDirs` reports the error of the last root's
    walk alone: the loop overwrites the errors of earlier walks.  In this
    model those walk errors are all nil, since the timestamp check cannot
    fail on an int64 time, so this records the loop's shape rather than a
    lost error.
   */
  lemma {:induction false} ScanDirsReportsLastWalk(fs: FileSystem, roots: seq<Path>, acc: Scan)
    requires AllExist(fs, roots) && |roots| > 0
    ensures ScanRoots(fs, roots, acc).err == ScanWalk(Walk(roots[|roots| - 1], fs[roots[|roots| - 1]]), []).err
    decreases |roots|
  {
    var next := ScanWalk(Walk(roots[0], fs[roots[0]]), acc.entries);
    if |roots| == 1 {
      ScanWalkErrorIndependent(Walk(roots[0], fs[roots[0]]), acc.entries, []);
    } else {
      ScanDirsReportsLastWalk(fs, roots[1..], next);
    }
  }

  lemma {:induction false} FileRecordsAppend(a: seq<Visit>, b: seq<Visit>)
    ensures FileRecords(a + b) == FileRecords(a) + FileRecords(b)
    decreases |a|
  {
    if |a| == 0 {
      assert a + b == b;
    } else {
      assert (a + b)[0] == a[0];
      assert (a + b)[1..] == a[1..] + b;
      FileRecordsAppend(a[1..], b);
    }
  }

  // ---------------------------------------------------------------------
  // findDir / compareDir / compareDirs
  // ---------------------------------------------------------------------

  /** What `findDir` comes back with, or its index panic on a one-field record. */
  datatype Found = Match(record: Record) | NoMatch | TooShort

  /**
    `findDir(path)`: the first record, version record included, whose
    second field is `path`.
   */
  function FindDir(entries: seq<Record>, path: Path): (f: Found)
    ensures f.Match? ==> exists i | 0 <= i < |entries| ::
              entries[i] == f.record && |f.record| >= 2 && f.record[1] == path &&
              forall j | 0 <= j < i :: |entries[j]| >= 2 && entries[j][1] != path
    ensures f.NoMatch? ==> forall i | 0 <= i < |entries| :: |entries[i]| >= 2 && entries[i][1] != path
    ensures f.TooShort? ==> exists i | 0 <= i < |entries| :: |entries[i]| < 2
    decreases |entries|
  {
    if |entries| == 0 then NoMatch
    else if |entries[0]| < 2 then TooShort
    else if entries[0][1] == path then Match(entries[0])
    else
      var f := FindDir(entries[1..], path);
      assert forall i | 0 <= i < |entries| - 1 :: entries[1..][i] == entries[i + 1];
      f
  }

  /** The outcome of `compareDirs`: nil, ErrDiff, or a runtime panic. */
  datatype Verdict = Same | Differs | Crashed(cause: Panic)

  /** `compareDir` on one visit. */
  function CompareVisit(v: Visit, entries: seq<Record>): (r: Verdict)
    ensures r == Differs <==> Stale(entries, v)
    ensures r.Crashed? ==> r.cause == RecordTooShort && !WellFormed(entries)
  {
    match v
    case DirVisit(_) => Same
    case FileVisit(p, m) =>
      match FindDir(entries, p)
      case NoMatch => Same
      case TooShort => Crashed(RecordTooShort)
      case Match(rec) =>
        if |rec| < 3 then Crashed(RecordTooShort)
        else if FormatInt(m) != rec[2] then Differs
        else Same
  }

  /** `filepath.Walk(root, s.compareDir)`: the first visit that is not Same ends the walk. */
  function CompareWalk(vs: seq<Visit>, entries: seq<Record>): (r: Verdict)
    ensures r == Same <==> forall i | 0 <= i < |vs| :: CompareVisit(vs[i], entries) == Same
    ensures r != Same ==> exists i | 0 <= i < |vs| ::
              r == CompareVisit(vs[i], entries) && forall j | 0 <= j < i :: CompareVisit(vs[j], entries) == Same
    decreases |vs|
  {
    if |vs| == 0 then Same
    else
      var v := CompareVisit(vs[0], entries);
      if v != Same then v else CompareWalk(vs[1..], entries)
  }

  /** `compareDirs`: compare root after root, returning at the first error. */
  function CompareDirs(fs: FileSystem, roots: seq<Path>, entries: seq<Record>): (r: Verdict)
    ensures r == Same ==> AllExist(fs, roots)
    ensures r.Crashed? ==> !AllExist(fs, roots) || !WellFormed(entries)
    decreases |roots|
  {
    if |roots| == 0 then Same
    else if roots[0] !in fs then Crashed(NilFileInfo(roots[0]))
    else
      var v := CompareWalk(Walk(roots[0], fs[roots[0]]), entries);
      if v != Same then v else CompareDirs(fs, roots[1..], entries)
  }

  /**
    A visit is stale against the entries when it is a file whose first
    matching record holds a different timestamp text.
   */
  predicate Stale(entries: seq<Record>, v: Visit) {
    v.FileVisit? &&
    var f := FindDir(entries, v.path);
    f.Match? && |f.record| >= 3 && f.record[2] != FormatInt(v.mtime)
  }

  /**
    Against well-formed entries the comparison never panics, and it reports
    a difference exactly when some visited file is stale.  A file with no
    record, however new, is not a difference.
   */
  lemma CompareWalkDiffersIffStale(vs: seq<Visit>, entries: seq<Record>)
    requires WellFormed(entries)
    ensures CompareWalk(vs, entries) != Differs ==> CompareWalk(vs, entries) == Same
    ensures CompareWalk(vs, entries) == Differs <==> exists i | 0 <= i < |vs| :: Stale(entries, vs[i])
  {
    var r := CompareWalk(vs, entries);
    if r != Same {
      var i :| 0 <= i < |vs| && r == CompareVisit(vs[i], entries) &&
               forall j | 0 <= j < i :: CompareVisit(vs[j], entries) == Same;
      assert !r.Crashed?;
    }
    if exists i | 0 <= i < |vs| :: Stale(entries, vs[i]) {
      var i :| 0 <= i < |vs| && Stale(entries, vs[i]);
      assert CompareVisit(vs[i], entries) != Same;
    }
  }


  lemma {:induction false} CompareWalkAppend(a: seq<Visit>, b: seq<Visit>, entries: seq<Record>)
    ensures CompareWalk(a + b, entries) ==
              if CompareWalk(a, entries) != Same then CompareWalk(a, entries) else CompareWalk(b, entries)
    decreases |a|
  {
    if |a| == 0 {
      assert a + b == b;
    } else {
      assert (a + b)[0] == a[0];
      assert (a + b)[1..] == a[1..] + b;
      CompareWalkAppend(a[1..], b, entries);
    }
  }

  /** With every root present, `compareDirs` is one comparison over all visits. */
  lemma {:induction false} CompareDirsIsCompareWalk(fs: FileSystem, roots: seq<Path>, entries: seq<Record>)
    requires AllExist(fs, roots)
    ensures CompareDirs(fs, roots, entries) == CompareWalk(AllVisits(fs, roots), entries)
    decreases |roots|
  {
    if |roots| > 0 {
      CompareDirsIsCompareWalk(fs, roots[1..], entries);
      CompareWalkAppend(Walk(roots[0], fs[roots[0]]), AllVisits(fs, roots[1..]), entries);
    }
  }

  /**
    `compareDirs` yields ErrDiff exactly when some file under the roots is
    stale against well-formed entries, and nil otherwise.
   */
  lemma CompareDirsDiffersIffStale(fs: FileSystem, roots: seq<Path>, entries: seq<Record>)
    requires AllExist(fs, roots) && WellFormed(entries)
    ensures CompareDirs(fs, roots, entries) != Differs ==> CompareDirs(fs, roots, entries) == Same
    ensures CompareDirs(fs, roots, entries) == Differs <==>
              exists i | 0 <= i < |AllVisits(fs, roots)| :: Stale(entries, AllVisits(fs, roots)[i])
  {
    CompareDirsIsCompareWalk(fs, roots, entries);
    CompareWalkDiffersIffStale(AllVisits(fs, roots), entries);
  }

  /** A missing root makes `compareDirs` panic unless an earlier root already differed. */
  lemma {:induction false} CompareDirsMissingRoot(fs: FileSystem, roots: seq<Path>, entries: seq<Record>)
    requires !AllExist(fs, roots)
    ensures CompareDirs(fs, roots, entries) != Same
    decreases |roots|
  {
    if roots[0] in fs {
      CompareDirsMissingRoot(fs, roots[1..], entries);
    }
  }

  // ---------------------------------------------------------------------
  // A fresh snapshot compared against the tree it was taken from
  // ---------------------------------------------------------------------

  /** One modification time per file path across a walk. */
  predicate Consistent(vs: seq<Visit>) {
    forall i, j | 0 <= i < |vs| && 0 <= j < |vs| && vs[i].FileVisit? && vs[j].FileVisit? &&
                  vs[i].path == vs[j].path :: vs[i].mtime == vs[j].mtime
  }

  predicate HasFile(vs: seq<Visit>, p: Path) {
    exists i | 0 <= i < |vs| :: vs[i].FileVisit? && vs[i].path == p
  }

  /** The modification time of the first visit of file `p`, if the walk has one. */
  function FileTime(vs: seq<Visit>, p: Path): (t: Option<Int64>)
    ensures t.Some? ==> FileVisit(p, t.value) in vs
    ensures t.None? <==> !HasFile(vs, p)
    decreases |vs|
  {
    if |vs| == 0 then None
    else if vs[0].FileVisit? && vs[0].path == p then Some(vs[0].mtime)
    else
      var t := FileTime(vs[1..], p);
      assert HasFile(vs, p) ==> HasFile(vs[1..], p) by {
        if HasFile(vs, p) {
          var i :| 0 <= i < |vs| && vs[i].FileVisit? && vs[i].path == p;
          assert vs[1..][i - 1] == vs[i];
        }
      }
      assert HasFile(vs[1..], p) ==> HasFile(vs, p) by {
        if HasFile(vs[1..], p) {
          var i :| 0 <= i < |vs[1..]| && vs[1..][i].FileVisit? && vs[1..][i].path == p;
          assert vs[i + 1] == vs[1..][i];
        }
      }
      t
  }

  /** In a consistent walk every visit of a file carries its first visit's time. */
  lemma FileTimeConsistent(vs: seq<Visit>, k: nat)
    requires Consistent(vs) && k < |vs| && vs[k].FileVisit?
    ensures FileTime(vs, vs[k].path) == Some(vs[k].mtime)
  {
    var p := vs[k].path;
    assert HasFile(vs, p);
    var t := FileTime(vs, p);
    var j :| 0 <= j < |vs| && vs[j] == FileVisit(p, t.value);
  }

  lemma FindDirCons(r: Record, rs: seq<Record>, p: Path)
    requires |r| >= 2
    ensures FindDir([r] + rs, p) == if r[1] == p then Match(r) else FindDir(rs, p)
  {
    assert ([r] + rs)[1..] == rs;
  }

  /**
    Looking a path up in the file records of a walk finds the record of the
    first visit of that file, or nothing when the walk has no such file.
   */
  lemma {:induction false} FindDirInFileRecords(vs: seq<Visit>, p: Path)
    ensures FindDir(FileRecords(vs), p) ==
              if FileTime(vs, p).Some? then Match(FileRecord(p, FileTime(vs, p).value)) else NoMatch
    decreases |vs|
  {
    if |vs| > 0 {
      FindDirInFileRecords(vs[1..], p);
      var rest := FileRecords(vs[1..]);
      if vs[0].FileVisit? {
        assert FileRecords(vs) == [FileRecord(vs[0].path, vs[0].mtime)] + rest;
        FindDirCons(FileRecord(vs[0].path, vs[0].mtime), rest, p);
      } else {
        assert FileRecords(vs) == rest;
      }
    }
  }

  /** Looking a path up in a snapshot: the version record first, then the file records. */
  lemma FindDirInSnapshot(text: string, vs: seq<Visit>, p: Path)
    requires p != text
    ensures FindDir(InitEntries(text) + FileRecords(vs), p) ==
              if FileTime(vs, p).Some? then Match(FileRecord(p, FileTime(vs, p).value)) else NoMatch
  {
    FindDirCons(VersionRecord(text), FileRecords(vs), p);
    FindDirInFileRecords(vs, p);
  }

  /**
    Comparing a tree with the snapshot just taken of it finds no
    difference, provided no file path equals the version text (the version
    record would otherwise be taken for that file's record).
   */
  lemma SnapshotMatchesItsTree(fs: FileSystem, roots: seq<Path>, text: string)
    requires AllExist(fs, roots)
    requires Consistent(AllVisits(fs, roots))
    requires !HasFile(AllVisits(fs, roots), text)
    ensures CompareDirs(fs, roots, Snapshot(text, fs, roots)) == Same
  {
    var vs := AllVisits(fs, roots);
    var snap := Snapshot(text, fs, roots);
    forall k | 0 <= k < |vs|
      ensures !Stale(snap, vs[k])
    {
      if vs[k].FileVisit? {
        assert HasFile(vs, vs[k].path);
        FindDirInSnapshot(text, vs, vs[k].path);
        FileTimeConsistent(vs, k);
      }
    }
    CompareDirsDiffersIffStale(fs, roots, snap);
  }

  /**
    A file of the snapshot found again with another modification time makes
    the comparison report a difference.
   */
  lemma ModifiedFileDiffers(before: seq<Visit>, text: string, vs: seq<Visit>, k: nat)
    requires Consistent(before) && !HasFile(before, text)
    requires k < |vs| && vs[k].FileVisit?
    requires exists i | 0 <= i < |before| ::
               before[i].FileVisit? && before[i].path == vs[k].path && before[i].mtime != vs[k].mtime
    ensures CompareWalk(vs, InitEntries(text) + FileRecords(before)) == Differs
  {
    var snap := InitEntries(text) + FileRecords(before);
    var i :| 0 <= i < |before| && before[i].FileVisit? && before[i].path == vs[k].path && before[i].mtime != vs[k].mtime;
    ModifiedFileIsStale(before, text, vs[k], i);
    CompareWalkDiffersIffStale(vs, snap);
  }

  /** The visit of a snapshot file with a time other than its recorded one is stale. */
  lemma ModifiedFileIsStale(before: seq<Visit>, text: string, v: Visit, i: nat)
    requires Consistent(before) && !HasFile(before, text) && v.FileVisit?
    requires i < |before| && before[i].FileVisit? && before[i].path == v.path && before[i].mtime != v.mtime
    ensures Stale(InitEntries(text) + FileRecords(before), v)
  {
    var p := v.path;
    assert p != text by {
      assert HasFile(before, p);
    }
    FileTimeConsistent(before, i);
    FindDirInSnapshot(text, before, p);
    RecordedTimeDiffers(InitEntries(text) + FileRecords(before), v, before[i].mtime);
  }

  /** A visit whose record carries another time than the visit's is stale. */
  lemma RecordedTimeDiffers(entries: seq<Record>, v: Visit, t: Int64)
    requires v.FileVisit? && FindDir(entries, v.path) == Match(FileRecord(v.path, t)) && t != v.mtime
    ensures Stale(entries, v)
  {
    if FormatInt(t) == FormatInt(v.mtime) {
      FormatIntInjective(t, v.mtime);
    }
  }

  /**
    Files the snapshot does not know, and known files with their recorded
    time, never make a difference: additions alone are not detected.
   */
  lemma AdditionsAreNotDifferences(before: seq<Visit>, text: string, vs: seq<Visit>)
    requires Consistent(before)
    requires forall k | 0 <= k < |vs| && vs[k].FileVisit? ::
               vs[k].path != text && (vs[k] in before || !HasFile(before, vs[k].path))
    ensures CompareWalk(vs, InitEntries(text) + FileRecords(before)) == Same
  {
    var snap := InitEntries(text) + FileRecords(before);
    forall k | 0 <= k < |vs|
      ensures !Stale(snap, vs[k])
    {
      if vs[k].FileVisit? {
        FindDirInSnapshot(text, before, vs[k].path);
        if vs[k] in before {
          var j :| 0 <= j < |before| && before[j] == vs[k];
          FileTimeConsistent(before, j);
        }
      }
    }
    CompareWalkDiffersIffStale(vs, snap);
  }

  // ---------------------------------------------------------------------
  // loadTracker / saveTracker
  // ---------------------------------------------------------------------

  /** What the tracker file holds: nothing, something unreadable, or decoded records. */
  datatype Stored = Missing | Unreadable | Records(records: seq<Record>)

  /** The durable store; `writable` is whether `os.Create` succeeds on it. */
  datatype Disk = Disk(tracker: Stored, writable: bool)

  /** `saveTracker`: overwrite the tracker with the entries. */
  function SaveTracker(disk: Disk, entries: seq<Record>): (r: (Disk, Option<Fault>))
    ensures r.1.None? <==> disk.writable
    ensures r.1.None? ==> r.0.tracker == Records(entries) && r.0.writable
    ensures r.1.Some? ==> r.0 == disk
  {
    if disk.writable then (Disk(Records(entries), true), None) else (disk, Some(SaveFailed))
  }

  datatype Loaded = Loaded(version: Version, entries: seq<Record>)

  /**
    `loadTracker`: the records must be non-empty, the first must start with
    "V", and its second field must be an integer.  The version text is kept
    as stored.  A first record too short to hold the field being read makes
    the Go code index past its end and panic.
   */
  function LoadTracker(stored: Stored): (r: Result<Loaded, Fault>)
    ensures r.Failure? && r.error == TrackerEmpty <==> stored.Records? && |stored.records| == 0
    ensures r.Failure? && r.error == TrackerNoVersion <==>
              stored.Records? && |stored.records| > 0 && |stored.records[0]| >= 1 && stored.records[0][0] != VersionTag
    ensures r.Failure? && r.error == TrackerBadVersion <==>
              stored.Records? && |stored.records| > 0 && |stored.records[0]| >= 2 &&
              stored.records[0][0] == VersionTag && ParseInt64(stored.records[0][1]).None?
    ensures r.Success? <==>
              stored.Records? && |stored.records| > 0 && |stored.records[0]| >= 2 &&
              stored.records[0][0] == VersionTag && ParseInt64(stored.records[0][1]).Some?
    ensures r.Success? ==>
              && r.value.entries == stored.records
              && r.value.version.text == stored.records[0][1]
              && ParseInt64(r.value.version.text) == Some(r.value.version.number)
  {
    match stored
    case Missing => Failure(TrackerUnreadable)
    case Unreadable => Failure(TrackerUnreadable)
    case Records(rs) =>
      if |rs| == 0 then Failure(TrackerEmpty)
      else if |rs[0]| < 1 then Failure(Crash(RecordTooShort))
      else if rs[0][0] != VersionTag then Failure(TrackerNoVersion)
      else if |rs[0]| < 2 then Failure(Crash(RecordTooShort))
      else match ParseInt64(rs[0][1])
        case None => Failure(TrackerBadVersion)
        case Some(v) => Success(Loaded(Version(v, rs[0][1]), rs))
  }

  /**
    A snapshot written at version `v` loads back as version `v` with its
    canonical text and the very same records.
   */
  lemma SaveLoadRoundTrip(disk: Disk, v: Int64, fs: FileSystem, roots: seq<Path>)
    requires disk.writable && AllExist(fs, roots)
    ensures var snap := Snapshot(SetVersion(v).text, fs, roots);
            LoadTracker(SaveTracker(disk, snap).0.tracker) == Success(Loaded(SetVersion(v), snap))
  {
  }

  /** A version stored with leading zeros loads as its number with the text kept verbatim. */
  lemma VersionTextKeptVerbatim()
    ensures LoadTracker(Records([["V", "007", "reseer"]])) ==
              Success(Loaded(Version(7, "007"), [["V", "007", "reseer"]]))
    ensures SetVersion(7).text == "7"
  {
    LeadingZerosAreNotCanonical();
  }
}

=== FILE: watching.dfy ===
/**
  What both watcher backends share: the native layer's refusals, the retry
  budget of `startRetry`, and the list helpers their reviews use.
 */
module Watching {
  import opened Wrappers
  import opened FileTree
  import opened Faults
  import opened Scanner

  /** The directories the kernel refuses to watch on start attempt `n` (0 is the first). */
  type Kernel = nat -> set<Path>

  /** How many times `start` is retried after a first failure. */
  const Retries: nat := 3

  /** The directories `start` is called with on attempt `i`: the given ones first, a fresh scan after. */
  function AttemptDirs(ds: seq<Path>, coreDirs: seq<Path>, fs: FileSystem, i: nat): seq<Path> {
    if i == 0 then ds else AllDirs(fs, coreDirs)
  }

  /** How many `start` calls a retry loop made in all, and the error of the last. */
  datatype Tally = Tally(attempts: nat, err: Option<Fault>)

  /**
    The retry loop of `startRetry` seen through its errors alone: attempt
    `n` (the `n` earlier ones having failed, the last with `err`) starts on
    `rescan`, and the loop stops at the first success or after the last retry.
   */
  function RetryTally(rescan: seq<Path>, kernel: Kernel, err: Option<Fault>, n: nat): (t: Tally)
    requires 1 <= n <= Retries + 1 && err.Some?
    ensures n <= t.attempts <= Retries + 1
    ensures forall i | n <= i < t.attempts - 1 :: StartError(rescan, kernel(i)).Some?
    ensures t.attempts == n ==> t.err == err && n == Retries + 1
    ensures t.attempts > n ==> t.err == StartError(rescan, kernel(t.attempts - 1))
    ensures t.attempts < Retries + 1 ==> t.err.None?
    decreases Retries + 1 - n
  {
    if n == Retries + 1 then Tally(n, err)
    else
      var e := StartError(rescan, kernel(n));
      if e.None? then Tally(n + 1, None)
      else RetryTally(rescan, kernel, e, n + 1)
  }

  /**
    The attempts `startRetry` makes, seen through their errors alone: the
    first on `ds`, then, after a failure, the retry loop on fresh scans.
    Every attempt but the last failed, and the last one's error is returned.
   */
  function StartAttempts(ds: seq<Path>, coreDirs: seq<Path>, fs: FileSystem, kernel: Kernel): (t: Tally)
    ensures 1 <= t.attempts <= Retries + 1
    ensures forall i | 0 <= i < t.attempts - 1 :: StartError(AttemptDirs(ds, coreDirs, fs, i), kernel(i)).Some?
    ensures t.err == StartError(AttemptDirs(ds, coreDirs, fs, t.attempts - 1), kernel(t.attempts - 1))
    ensures t.attempts < Retries + 1 ==> t.err.None?
  {
    var e := StartError(ds, kernel(0));
    if e.None? then Tally(1, None)
    else
      var t := RetryTally(AllDirs(fs, coreDirs), kernel, e, 1);
      assert forall i | 0 < i < t.attempts - 1 :: AttemptDirs(ds, coreDirs, fs, i) == AllDirs(fs, coreDirs);
      t
  }

  /** The index of the first refused directory, or `|ds|` when none is refused. */
  function FirstRefused(ds: seq<Path>, refused: set<Path>): (k: nat)
    ensures k <= |ds|
    ensures forall i | 0 <= i < k :: ds[i] !in refused
    ensures k < |ds| ==> ds[k] in refused
    decreases |ds|
  {
    if |ds| == 0 then 0
    else if ds[0] in refused then 0
    else
      var k := FirstRefused(ds[1..], refused);
      assert forall i | 0 <= i < k :: ds[1..][i] == ds[i + 1];
      1 + k
  }

  /** The error `start` returns: the refusal of the first refused directory, if any. */
  function StartError(ds: seq<Path>, refused: set<Path>): Option<Fault> {
    var k := FirstRefused(ds, refused);
    if k < |ds| then Some(WatchRefused(ds[k])) else None
  }

  /** `start` fails exactly when one of its directories is refused. */
  lemma StartFailsIffRefused(ds: seq<Path>, refused: set<Path>)
    ensures StartError(ds, refused).Some? <==> exists d | d in ds :: d in refused
  {
    var k := FirstRefused(ds, refused);
    if k == |ds| {
      assert forall d | d in ds :: d !in refused;
    }
  }

  function SeqSet(ds: seq<Path>): set<Path> {
    set d | d in ds
  }

  predicate NoDuplicates(ds: seq<Path>) {
    forall i, j | 0 <= i < j < |ds| :: ds[i] != ds[j]
  }

  lemma {:induction false} DistinctCardinality(ds: seq<Path>)
    requires NoDuplicates(ds)
    ensures |SeqSet(ds)| == |ds|
    decreases |ds|
  {
    if |ds| > 0 {
      var last := ds[|ds| - 1];
      var init := ds[..|ds| - 1];
      DistinctCardinality(init);
      assert SeqSet(ds) == SeqSet(init) + {last};
      assert last !in SeqSet(init);
    }
  }
}

=== FILE: wrappers.dfy ===
/** Optional values and results, used wherever the Go code returns a nil-able value or an error. */
module Wrappers {

  datatype Option<+T> = None | Some(value: T)

  datatype Result<+T, +E> = Success(value: T) | Failure(error: E)

}
